=== FILE: README.md ===
# sendke poster core in Dafny

sendke builds printable M-PESA payment posters. The user picks one of three
payment types:

- **Send Money**: a phone number and, optionally, a name;
- **Paybill**: a business number and an account number;
- **Till Number**: a till number.

The poster shows:

- a title;
- the payment values with their labels, on coloured, white and black bands;
- optionally, a QR code that carries the same values in machine form.

This project models the logic under the poster: the functions that decide
what the poster shows and how it is laid out. The modules are:

- `Text`: the JavaScript string primitives the source relies on:
  - `\d` and `\s` filters;
  - `trim`;
  - UTF-16 `length`;
  - ASCII `toUpperCase` and `toLowerCase`;
  - `replace` of one character;
  - `join(" ")`.
- `Types`: the shared data:
  - the payment type;
  - the `value || fallback` idiom;
  - the form values;
  - templates;
  - the display values.
- `Helpers`: `src/lib/helpers.ts`:
  - the phone, business and account number formatters;
  - the left-rounded rectangle path.
- `Policy`: the layout policy shared by the exporter and the preview. It
  fixes which sections a poster has, in what order, on what background, and
  where the separator rules go.
- `Raster`: the canvas exporter `src/utils/poster-download.ts`, modelled as
  a list of draw commands:
  - band geometry;
  - rules;
  - font sizes;
  - text positions;
  - QR card placement;
  - the file name.
- `Preview`: the DOM preview `src/components/poster-preview.tsx`, modelled
  as a tree of blocks:
  - grid rows;
  - font-size classes by scale bucket;
  - borders;
  - the QR strip.
- `Home`: the page `src/routes/index.tsx`:
  - the display values and the QR payload;
  - the input filters of the number and name fields;
  - the tab-change handler;
  - the payment-type text;
  - the page's own account formatter variant;
  - the page's inline exporter and preview.
- `Form`: the schema `src/schemas/form.tsx`:
  - the title and font-scale checks;
  - the per-type refinement;
  - the issue list;
  - the default values.

Canvas, DOM and download effects are not modelled. Each drawing step becomes
a value: a `DrawCmd` for the canvas, or a `Block` for the preview.

Points worth knowing about the code:

- For Paybill, the code formats the account number with the business-number
  formatter (`123 456 789` style), not the four-digit account grouping
  (`Home.PaybillAccountInThrees`).
- The section labels exist in three copies: the exporter, the preview and
  the page. All three agree.
- The exporter's fallback title `SEND MONEY` is already upper case, so
  `toUpperCase` leaves it unchanged.
- The page's inline exporter draws no rules and ignores the font scale.
- The previews show the title as typed, while both exporters draw it
  upper-cased, with `SEND MONEY` in place of an empty title
  (`Preview.TitleAsTyped`).

## Model

| member | source | states |
|---|---|---|
| Types.PaymentTypeName | src/schemas/form.tsx:6 | the enum names are upper-case words joined by `_` |
| Types.Or | src/routes/index.tsx:196-223 | `v \|\| fallback`: an undefined or empty field yields the fallback; otherwise the field's own non-empty text |
| Text.TrimEmptyIffBlank | src/schemas/form.tsx:29-41 | `s.trim()` is empty exactly when every character of `s` is ECMAScript whitespace |
| Text.Utf16OfBmp | src/schemas/form.tsx:22-27 | for digit strings, the UTF-16 `length` the schema measures is the character count |
| Text.ToUpperIdempotent | src/routes/index.tsx:954-956 | upper-casing twice is the same as upper-casing once |
| Text.JoinThenDigits | src/lib/helpers.ts:56-66 | joining digit groups with spaces and stripping the non-digits gives back the concatenated digits |
| Helpers.Groups | src/lib/helpers.ts:24-26 | the reference cut of a digit string into groups of the given head sizes: the sizes are as given and the pieces concatenate back to the string |
| Helpers.FormatPhoneNumber | src/lib/helpers.ts:22-29 | input that does not hold exactly ten digits is returned unchanged, as typed |
| Helpers.PhoneGrouping | src/lib/helpers.ts:22-29 | ten digits come out as 4-3-3 groups joined by single spaces |
| Helpers.PhoneDigitsPreserved | src/lib/helpers.ts:22-29 | formatting never adds, drops or reorders a digit |
| Helpers.PhoneIdempotent | src/lib/helpers.ts:22-29 | formatting an already formatted number changes nothing |
| Helpers.PhoneKeepsShape | src/lib/helpers.ts:22-29 | digits-and-spaces input stays digits-and-spaces |
| Helpers.FormatBusinessNumber | src/lib/helpers.ts:31-54 | the result is empty exactly when the input has no digit |
| Helpers.BusinessBuckets | src/lib/helpers.ts:36-53 | the length buckets: up to 3 digits form one group; 4-7 digits split 3 + rest; 8 digits split 4 + 4; 9 or more split 3 + 3 + rest |
| Helpers.NineDigits | src/lib/helpers.ts:48-50 | nine digits come out as `ddd ddd ddd` |
| Helpers.OverflowDigits | src/lib/helpers.ts:51-53 | past nine digits, everything after the sixth digit stays in the last group |
| Helpers.BusinessDigitsPreserved | src/lib/helpers.ts:31-54 | the output is digits and spaces, and removing the spaces gives back exactly the input's digits |
| Helpers.BusinessSpaceCount | src/lib/helpers.ts:36-53 | the output holds one space per group boundary, never more than two |
| Helpers.BusinessIdempotent | src/lib/helpers.ts:31-54 | formatting an already formatted business number changes nothing |
| Helpers.SlicesShape | src/lib/helpers.ts:61-64 | the slicing loop makes ceil(n/4) slices, all of four digits except a last of one to four, and they concatenate back to the digits |
| Helpers.JoinSlicesInFours | src/lib/helpers.ts:61-65 | joining the slices puts a space after every fourth digit and nowhere else |
| Helpers.InFoursUnique | src/lib/helpers.ts:56-66 | there is only one grouping in fours of a digit string, so the output is determined by the digits alone |
| Helpers.FormatAccountNumber | src/lib/helpers.ts:56-66 | no digits give the empty string; otherwise the digits are grouped in fours |
| Helpers.InFoursDigits | src/lib/helpers.ts:56-66 | a grouping in fours is digits and spaces and holds exactly the grouped digits |
| Helpers.NineDigitsGroupedApart | src/lib/helpers.ts:48-66 | on nine digits the business and the account formatters disagree |
| Helpers.AccountDigitsPreserved | src/lib/helpers.ts:56-66 | the account output keeps exactly the input's digits, and formatting twice is formatting once |
| Helpers.ClampRadius | src/lib/helpers.ts:10-11 | the corner radius is capped at half the width and at half the height, and is non-negative for non-negative inputs |
| Helpers.RoundRectLeftShape | src/lib/helpers.ts:13-19 | the path is closed: it starts and ends at the top edge one radius in. Only the two left corners are arcs, both with the clamped radius, and each arc turns a right angle |
| Policy.Layout | src/utils/poster-download.ts:93-173 | the section list: the title comes first and the primary value on white is always present. Only Paybill has black label bands and five sections. A trailing coloured section exists exactly when there is a secondary value. Rules sit above the primary value unless Paybill, and below it when a secondary section follows |
| Policy.LayoutTable | src/utils/poster-download.ts:117-173 | the three poster shapes, section by section; none depends on the QR switch |
| Policy.PrimaryLabel | src/utils/poster-download.ts:23-34 | every type has a primary label, written in capitals and spaces |
| Policy.SecondaryLabel | src/utils/poster-download.ts:36-50 | a secondary label exists exactly when the poster has a secondary section |
| Raster.MainHeight | src/utils/poster-download.ts:98-108 | a positive canvas height gives a positive band height |
| Raster.BlackHeight | src/utils/poster-download.ts:98-108 | label bands have zero height unless the type has black sections, and positive height otherwise |
| Raster.FillPass | src/utils/poster-download.ts:117-173 | one band per layout section, in order. The bands stack without gaps from the top border and span the width inside the border. Each band has the black or the main height according to its background |
| Raster.FillPassEnd | src/utils/poster-download.ts:100-173 | the bands end 1.05 times the height below the border for Paybill, and one height below it otherwise, past the canvas bottom |
| Raster.RulePass | src/utils/poster-download.ts:175-201 | no rules for Paybill, two with a secondary value, one otherwise; each spans the inner width at the rule thickness |
| Raster.RulesOnBoundaries | src/utils/poster-download.ts:175-201 | the rules are where the layout puts them: each is centred on the boundary above the primary value, or on the one below it |
| Raster.CentresAreMidpoints | src/utils/poster-download.ts:215-243 | every text centre is the vertical midpoint of its band; centres of absent sections are zero |
| Raster.Round | src/utils/poster-download.ts:207-213 | `Math.round`: the nearest integer, halves rounding up |
| Raster.RoundMonotone | src/utils/poster-download.ts:207-213 | rounding preserves order |
| Raster.FontSizesMonotone | src/utils/poster-download.ts:207-213 | a larger font scale never gives a smaller title, value or label font |
| Raster.TextX | src/utils/poster-download.ts:111 | texts are centred in the width left over by the QR column |
| Raster.TextPass | src/utils/poster-download.ts:245-295 | all texts share the centre column. There is one text per present section: title, primary value, the primary label for Paybill, and the secondary value and its label only when there is one |
| Raster.TextPassIsReference | src/utils/poster-download.ts:245-295 | the texts are exactly one text per band, in band order, each band's own string at its own font size, skipping the secondary bands when the secondary value is empty |
| Raster.BandTextsFromBands | src/utils/poster-download.ts:245-295 | every text of the per-band pass comes from a band that is written, and is that band's text |
| Raster.BandTextsCoverBands | src/utils/poster-download.ts:245-295 | every written band gets its text somewhere in the per-band pass |
| Raster.BandTextsMatchBands | src/utils/poster-download.ts:245-295 | each text of the per-band pass is the string, size, midpoint and colour of some band, and each written band has its text |
| Raster.TextsOnBands | src/utils/poster-download.ts:245-295 | every text sits at the midpoint of a band and shows that band's string (title, label or value) at that band's font size, white exactly when that band's text is white. Every band gets its text, except the secondary bands when the secondary value is empty |
| Raster.BandOfText | src/utils/poster-download.ts:254-295 | names the band each text is drawn on, whose string and font size the text carries |
| Raster.QrPlacement | src/utils/poster-download.ts:301-315 | the QR card hugs the right edge and is centred vertically; the symbol is square and centred in the card; the card corner uses the clamped radius |
| Raster.QrSymbolFits | src/utils/poster-download.ts:301-315 | the symbol never spills above or below the card, and fits horizontally exactly when it is no wider than the card |
| Raster.QrCommands | src/utils/poster-download.ts:297-394 | the QR block is drawn exactly when the QR switch is on and the primary value is non-empty, and then it draws the QR payload in the placed symbol box |
| Raster.Filename | src/utils/poster-download.ts:399-402 | the file name is `send-ke-…​.png` |
| Raster.TypeSegmentIsLower | src/utils/poster-download.ts:400 | the type part of the file name is the lower-cased enum name |
| Raster.FilenameNoSpace | src/utils/poster-download.ts:399-402 | with a space-free template slug, the file name holds no whitespace |
| Raster.FilenameInjective | src/utils/poster-download.ts:399-402 | for one template, the file name determines the payment type and the primary value up to spaces |
| Raster.DefaultTitleIsUpper | src/utils/poster-download.ts:245-252 | the fallback title is unchanged by upper-casing |
| Raster.DownloadPoster | src/utils/poster-download.ts:52-410 | an export happens exactly when the preview is mounted and a 2D context is available; it is named by `Filename` and starts with the backdrop in the border colour |
| Raster.FillsFollowLayout | src/utils/poster-download.ts:113-201 | fills are painted section by section in the layout's colours, and rules appear exactly where the layout asks for them |
| Raster.FillsColoured | src/utils/poster-download.ts:118-173 | with a main colour, every section fill has a colour, the one its background asks for |
| Raster.MainColor | src/utils/poster-download.ts:85 | the main colour is never empty, and a chosen colour is used as given |
| Raster.PosterFills | src/utils/poster-download.ts:85-173 | every fill of the export has a colour: the chosen colour, or green without one, on the coloured sections, white or black on the others |
| Raster.PosterTitle | src/utils/poster-download.ts:245-252 | the first text is the title: white, in the title font, at the middle of the first band, which is painted in the main colour. Without a title it reads `SEND MONEY`; with one it has the title's length, matches it letter for letter up to case, and holds no lower-case letter |
| Raster.PosterSymbolIffQr | src/utils/poster-download.ts:297-394 | the poster contains a QR symbol exactly when the QR switch is on and the primary value is non-empty |
| Preview.FontBucket | src/components/poster-preview.tsx:42-52 | the scale thresholds map to six buckets, and the default bucket is exactly the interval (0.9, 1.1] |
| Preview.FontBucketMonotone | src/components/poster-preview.tsx:42-52 | a larger scale never falls in a lower bucket |
| Preview.FontSizeClassSeparates | src/components/poster-preview.tsx:42-52 | two scales get the same value class exactly when they fall in the same bucket |
| Preview.LabelFontSizeClassMerges | src/components/poster-preview.tsx:55-63 | label classes follow the buckets too, except that the two lowest buckets share a class |
| Preview.LabelsAgree | src/components/poster-preview.tsx:65-89 | the preview's label texts are the exporter's |
| Preview.GridRows | src/components/poster-preview.tsx:99-104 | every grid row has a positive share |
| Preview.RenderWith | src/components/poster-preview.tsx:99-202 | one grid row per block, and a QR strip exactly when the QR switch is on |
| Preview.Render | src/components/poster-preview.tsx:110-182 | label blocks take the label class of the scale and all other blocks take the value class |
| Preview.PreviewFollowsLayout | src/components/poster-preview.tsx:110-182 | the preview has one block per layout section, in order. Borders sit exactly where the raster draws rules. Every block shifts left when there is a QR strip. White text and the shown text follow the section |
| Preview.ClassesFollowKind | src/components/poster-preview.tsx:110-182 | label blocks use the small class and everything else the big one |
| Preview.RenderShapes | src/components/poster-preview.tsx:110-182 | the three preview shapes block by block, including which block carries the borders |
| Preview.RowsMatchRasterAwayFromPaybill | src/components/poster-preview.tsx:99-104 | for Send Money and Till, the grid row shares scaled to the height are the raster's band heights |
| Preview.PaybillProportionsDiffer | src/components/poster-preview.tsx:99-104 | for Paybill, the preview gives the title 2.5 label heights while the raster gives it 2.25 |
| Preview.QrWithoutPrimaryValue | src/components/poster-preview.tsx:185-202 | with the QR switch on and an empty primary value, the preview still shows the QR strip while the exporter draws none |
| Preview.TitleAsTyped | src/components/poster-preview.tsx:114-118 | the preview's title block shows the title as typed, empty included. The exporter draws `SEND MONEY` for an empty title and a different string for a title holding a lower-case letter |
| Home.PageAccountFormat | src/routes/index.tsx:182-193 | a space-stripped all-digit value is grouped in fours; anything else, blank included, is returned as typed |
| Home.PageAccountAgrees | src/routes/index.tsx:182-193 | on digits-and-spaces input holding a digit, the page variant agrees with the library formatter |
| Home.PageAccountKeepsOtherText | src/routes/index.tsx:182-193 | a value holding a character that is neither digit nor space is kept by the page variant but rewritten by the library formatter |
| Home.PageAccountKeepsBlank | src/routes/index.tsx:182-193 | a blank value is kept by the page variant but emptied by the library formatter |
| Home.CurrentDisplayValues | src/routes/index.tsx:196-223 | the QR payload starts with the type's tag. Send Money shows the typed phone number and name, or the placeholders `0712 345 678` and `JOHN DOE` when they are empty. Paybill and Till show the digits of the typed numbers, or of `123456`, with only spaces added. Till has no secondary value |
| Home.PaybillAccountInThrees | src/routes/index.tsx:204-209 | a nine-digit Paybill account is shown `ddd ddd ddd`, which is not the account formatter's grouping in fours |
| Home.QrPayloads | src/routes/index.tsx:196-223 | the payload for each type: the tag followed by the space-stripped raw fields or placeholders, with `\|` between the paybill and account numbers |
| Home.QrDataHasNoSpace | src/routes/index.tsx:196-223 | the QR payload never holds whitespace |
| Home.SendMoneyQrMatchesShown | src/routes/index.tsx:198-203 | for Send Money, the payload is the shown phone number without spaces, placeholder included |
| Home.PhoneInput | src/routes/index.tsx:714-721 | typing more than ten digits is ignored; otherwise the stored value keeps exactly the typed digits, formatted once there are ten |
| Home.PhoneInputKeepsStored | src/routes/index.tsx:714-721 | the stored phone number always stays at most ten digits, grouped when complete |
| Home.BusinessInput | src/routes/index.tsx:782-789 | typing more than ten digits is ignored; otherwise the stored value keeps exactly the typed digits in business grouping, and is empty when no digit was typed |
| Home.BusinessInputKeepsStored | src/routes/index.tsx:782-789 | stored business numbers stay formatted and at most ten digits |
| Home.BusinessStoredDisplay | src/routes/index.tsx:782-789 | a stored business number is a fixed point of the formatter, and stripping its spaces gives its digits |
| Home.BusinessShownIsCarried | src/routes/index.tsx:204-215 | under the input filter, the business value shown and the one carried in the QR agree up to spaces |
| Home.QrMatchesShown | src/routes/index.tsx:196-223 | under the input filters, every type's QR payload is the tag followed by the shown values without spaces |
| Home.PrimaryShownUnderFilters | src/routes/index.tsx:196-223 | the primary value is never empty, so the exporter draws the QR exactly when the switch is on |
| Home.NameInput | src/routes/index.tsx:954-956 | for ASCII input, the stored name has the typed length and no lower-case letter |
| Home.NameInputStable | src/routes/index.tsx:954-956 | re-entering the stored name stores the same name |
| Home.TabTitle | src/routes/index.tsx:638-645 | the new title is the enum name with every `_` read as a space |
| Home.TabTitleRoundTrip | src/routes/index.tsx:638-645 | putting the underscores back recovers the enum name |
| Home.TabTitleInjective | src/routes/index.tsx:638-645 | different tabs give different titles |
| Home.TabChange | src/routes/index.tsx:638-645 | a tab change sets the type and its title, turns the QR off exactly for Paybill, and leaves every entered value alone |
| Home.TabChangeLastWins | src/routes/index.tsx:638-645 | two tab changes in a row equal the last one |
| Home.PaymentTypeText | src/routes/index.tsx:549-560 | every type has a non-empty display text |
| Home.PaymentTypeTextInjective | src/routes/index.tsx:549-560 | different types have different display texts |
| Home.InlineFonts | src/routes/index.tsx:346-350 | the inline exporter's fonts are the shared ones at scale 1 |
| Home.InlinePasses | src/routes/index.tsx:252-436 | the inline exporter draws no separator rules |
| Home.HandleDownload | src/routes/index.tsx:231-547 | an export happens exactly when the preview is mounted and a 2D context is available, under the shared file name |
| Home.InlineIsExporterWithoutRules | src/routes/index.tsx:252-436 | with a colour and a title set, the inline exporter is the library exporter at scale 1 without the rules, whatever the chosen scale |
| Home.InlineEmptyTitle | src/routes/index.tsx:383-388 | with an empty title, the inline exporter draws an empty title while the library exporter draws `SEND MONEY` |
| Home.InlinePreview | src/routes/index.tsx:1076-1186 | the inline preview has one block per layout section |
| Home.InlinePreviewAtDefaultScale | src/routes/index.tsx:1076-1186 | the inline preview is the shared preview at the default value class. Its label class is a strict prefix of the default label class |
| Form.Refine | src/schemas/form.tsx:18-51 | Send Money needs a phone number of at least ten non-whitespace code units, and a non-blank name when the name is shown. Paybill needs a non-blank paybill and account number. Till needs a non-blank till number |
| Form.FilledIffNotBlank | src/schemas/form.tsx:29-41 | `!v \|\| v.trim().length === 0` fails exactly on missing or blank fields |
| Form.Validate | src/schemas/form.tsx:4-51 | no issue exactly when the title is non-empty, the scale is within [0.7, 1.8] and the refinement holds. Each issue is reported exactly when its check fails, and the refinement's issue comes last |
| Form.PageValidate | src/routes/index.tsx:37-83 | the page's schema: no issue exactly when the title is non-empty and the refinement holds; it never reports a scale issue |
| Form.PageDropsScaleRule | src/routes/index.tsx:37-83 | the page's issues are the library's without the scale issues; they agree when the scale is in range, and a form with an out-of-range scale can pass on the page while the library rejects it |
| Form.DefaultsNeedPhoneAndName | src/schemas/form.tsx:53-65 | the default values fail only the refinement; their colour and title are the exporter's fallbacks |
| Form.RefineReadsOwnFields | src/schemas/form.tsx:20-44 | the refinement reads only the fields of the selected type |
| Form.TabChangeTitleValid | src/schemas/form.tsx:15-16 | a tab change never causes a title issue and does not change the font-scale issues |
| Form.StoredPhoneLongEnough | src/schemas/form.tsx:21-27 | for a phone number as the page's filter stores it, the length check means exactly ten digits |

## Left out

- Canvas drawing is not modelled. Text measurement, fonts, colours as
  pixels, the card shadow, `arcTo` rasterisation and PNG encoding are
  replaced by a list of draw commands.
- The QR symbol itself is not modelled. The QR library's encoding is
  foreign code; the model keeps only the payload and the box it is drawn in.
- Browser effects are not modelled: the DOM, React state and rendering,
  Tailwind classes beyond the font-size class names, `html2canvas`, the
  object URL and the anchor click of the download. The two availability
  checks become boolean parameters.
- Floating point is not modelled: sizes are exact reals. `Math.round`
  follows its definition on reals.
- Non-ASCII case mapping is not modelled. `ToUpper` and `ToLower` map only
  `a`-`z` and `A`-`Z`.
- Async timing is not modelled: the awaited font load
  (`document.fonts.load`) and the QR rendering callback (`QRCode.toCanvas`)
  are taken to complete.
- `templates.json` is not part of this model. A template is its slug and
  its size.
- The zod type machinery is not modelled. The field types are carried by
  `PaymentForm`. The default messages of the font-scale range checks are
  not modelled.
- The page's copies of the formatters, the labels and `roundRectLeft`
  (src/routes/index.tsx:148-193, 562-587, 1303-1323) are not modelled
  separately. They repeat the library code, except for the account
  formatter variant, modelled as `Home.PageAccountFormat`. The page's copy
  of the schema (src/routes/index.tsx:37-83) differs from the library's: it
  has no `fontScale` rule. It is modelled as `Form.PageValidate`.
- The preview's template selector and the page's colour, font-scale and
  switch controls are not modelled. They only set form fields.
- The other input handlers (src/routes/index.tsx:818-825 account, 886-893
  till) are not modelled separately. They apply the same filter as the
  paybill handler, modelled by `Home.BusinessInput`.
- Helpers.RoundRectLeft: an `arcTo` is modelled by its corner, radius
  and end point, not by the curve the canvas draws.
- Raster.TextPass: strings, font sizes, positions and colours are stated;
  how the canvas measures or clips text is not.
- Form.Validate: assumes zod 3 semantics, where the refinement still runs
  after a field check has failed. zod 4 skips the refinement in that case,
  so a form with an empty title would report only the title issue. The zod
  version is not pinned in the model.
- Home.PaymentTypeText: only non-emptiness and injectivity are stated. The
  texts themselves are display copy.

=== FILE: form.dfy ===
/** The form schema of `src/schemas/form.tsx`: the field checks of the
    object schema, the per-type refinement, and the default values. The
    field types are carried by `PaymentForm` itself, so what is left to
    check is the title's length, the font scale's range and the refinement.
    A failed field check leaves the parse "dirty" rather than aborting it, so
    the refinement runs as well and every failure is reported. */
module Form {
  import opened Types
  import opened Text
  import Helpers
  import Home
  import Raster

  /** One validation failure: `title` too short, `fontScale` below its
      minimum or above its maximum, or the refinement's missing fields,
      reported under `phoneNumber`. */
  datatype Issue = TitleTooShort | ScaleTooSmall | ScaleTooLarge | RequiredFields

  /** The field an issue is reported under. */
  function IssuePath(i: Issue): string {
    match i
    case TitleTooShort => "title"
    case ScaleTooSmall => "fontScale"
    case ScaleTooLarge => "fontScale"
    case RequiredFields => "phoneNumber"
  }

  /** The message of the two issues the schema words itself. */
  function IssueMessage(i: Issue): Option<string> {
    match i
    case TitleTooShort => Some("Title cannot be empty")
    case RequiredFields => Some("Please fill in all required fields for the selected payment type")
    case _ => None
  }

  const MinFontScale: real := 0.7
  const MaxFontScale: real := 1.8

  /** `!s || s.trim().length === 0` negated: the field holds a non-blank string. */
  predicate Filled(f: Field) {
    !Falsy(f) && Utf16Length(Trim(f.text)) != 0
  }

  /** `!s || s.replace(/\s/g, "").length < 10` negated. */
  predicate PhoneLongEnough(f: Field) {
    !Falsy(f) && Utf16Length(StripSpaces(f.text)) >= 10
  }

  /** The refinement: Send Money needs a phone number of at least ten
      non-whitespace code units and, when the name is shown, a non-blank
      name; Paybill needs a non-blank paybill and account number; Till needs
      a non-blank till number. Nothing else is looked at. */
  function Refine(f: PaymentForm): (ok: bool)
    ensures ok <==> match f.paymentType
      case SendMoney =>
        && f.phoneNumber.Given? && Utf16Length(StripSpaces(f.phoneNumber.text)) >= 10
        && (f.showName ==> f.name.Given? && !Blank(f.name.text))
      case Paybill =>
        && f.paybillNumber.Given? && !Blank(f.paybillNumber.text)
        && f.accountNumber.Given? && !Blank(f.accountNumber.text)
      case TillNumber =>
        f.tillNumber.Given? && !Blank(f.tillNumber.text)
  {
    FilledIffNotBlank(f.name);
    FilledIffNotBlank(f.paybillNumber);
    FilledIffNotBlank(f.accountNumber);
    FilledIffNotBlank(f.tillNumber);
    match f.paymentType
    case SendMoney => PhoneLongEnough(f.phoneNumber) && !(f.showName && !Filled(f.name))
    case Paybill => Filled(f.paybillNumber) && Filled(f.accountNumber)
    case TillNumber => Filled(f.tillNumber)
  }

  /** A field is filled exactly when it holds a string that is not blank. */
  lemma FilledIffNotBlank(f: Field)
    ensures Filled(f) <==> f.Given? && !Blank(f.text)
  {
    if f.Given? {
      Utf16NonEmpty(Trim(f.text));
      TrimEmptyIffBlank(f.text);
    }
  }

  /** `formSchema.safeParse`: the issues in the order the schema finds them,
      the field checks first and the refinement last. */
  function Validate(f: PaymentForm): (issues: seq<Issue>)
    ensures issues == [] <==> f.title != [] && MinFontScale <= f.fontScale <= MaxFontScale && Refine(f)
    ensures TitleTooShort in issues <==> f.title == []
    ensures ScaleTooSmall in issues <==> f.fontScale < MinFontScale
    ensures ScaleTooLarge in issues <==> f.fontScale > MaxFontScale
    ensures RequiredFields in issues <==> !Refine(f)
    ensures !Refine(f) ==> issues[|issues| - 1] == RequiredFields
  {
    Utf16NonEmpty(f.title);
    var short := Utf16Length(f.title) < 1;
    assert short <==> f.title == [];
    Collect(short, f.fontScale < MinFontScale, f.fontScale > MaxFontScale, !Refine(f))
  }

  /** The issues of the three field checks and the refinement, in that order,
      given which of them failed. */
  function Collect(short: bool, low: bool, high: bool, refine: bool): (r: seq<Issue>)
    ensures r == [] <==> !short && !low && !high && !refine
    ensures TitleTooShort in r <==> short
    ensures ScaleTooSmall in r <==> low
    ensures ScaleTooLarge in r <==> high
    ensures RequiredFields in r <==> refine
    ensures refine ==> r[|r| - 1] == RequiredFields
  {
    (if short then [TitleTooShort] else [])
      + (if low then [ScaleTooSmall] else [])
      + (if high then [ScaleTooLarge] else [])
      + (if refine then [RequiredFields] else [])
  }

  /** The copy of the schema the page hands to its form resolver: the same
      title check and refinement, but no `fontScale` rule, so the page never
      reports a scale issue. */
  function PageValidate(f: PaymentForm): (issues: seq<Issue>)
    ensures issues == [] <==> f.title != [] && Refine(f)
    ensures TitleTooShort in issues <==> f.title == []
    ensures ScaleTooSmall !in issues && ScaleTooLarge !in issues
    ensures RequiredFields in issues <==> !Refine(f)
    ensures !Refine(f) ==> issues[|issues| - 1] == RequiredFields
  {
    Utf16NonEmpty(f.title);
    var short := Utf16Length(f.title) < 1;
    assert short <==> f.title == [];
    Collect(short, false, false, !Refine(f))
  }

  /** The page's check is the library's check with the scale issues taken
      out: they agree on every form whose scale is in range, and a form with
      an out-of-range scale that the library rejects can pass on the page. */
  lemma PageDropsScaleRule(f: PaymentForm)
    ensures PageValidate(f) == Validate(f.(fontScale := 1.0))
    ensures MinFontScale <= f.fontScale <= MaxFontScale ==> PageValidate(f) == Validate(f)
    ensures forall i :: i in PageValidate(f) <==> i in Validate(f) && i != ScaleTooSmall && i != ScaleTooLarge
    ensures f.title != [] && Refine(f) && !(MinFontScale <= f.fontScale <= MaxFontScale) ==>
      PageValidate(f) == [] && Validate(f) != []
  {
  }

  /** `FORM_DEFAULT_VALUES`. */
  const Defaults: PaymentForm := PaymentForm(
    SendMoney, Given(""), Given(""), Given(""), Given(""), Given(""),
    "#16a34a", true, true, "SEND MONEY", 1.0)

  /** The defaults fail only the refinement: a fresh form cannot be submitted
      until a phone number and a name are entered. Their colour and title
      are the exporter's fallbacks. */
  lemma DefaultsNeedPhoneAndName(f: PaymentForm)
    requires f == Defaults
    ensures Validate(f) == [RequiredFields]
    ensures f.selectedColor == Raster.DefaultColor && f.title == Raster.DefaultTitle
  {
    assert f.phoneNumber.text == [];
    assert StripSpaces(f.phoneNumber.text) == [];
    assert !Refine(f);
  }

  /** The refinement only reads the fields of the selected type. */
  lemma RefineReadsOwnFields(f: PaymentForm, g: PaymentForm)
    requires f.paymentType == g.paymentType
    requires f.paymentType == SendMoney ==> f.phoneNumber == g.phoneNumber && f.showName == g.showName && f.name == g.name
    requires f.paymentType == Paybill ==> f.paybillNumber == g.paybillNumber && f.accountNumber == g.accountNumber
    requires f.paymentType == TillNumber ==> f.tillNumber == g.tillNumber
    ensures Refine(f) == Refine(g)
  {
  }

  /** A tab change never causes a title issue, and leaves a valid font scale
      valid. */
  lemma TabChangeTitleValid(f: PaymentForm, pt: PaymentType)
    ensures TitleTooShort !in Validate(Home.TabChange(f, pt))
    ensures (ScaleTooSmall in Validate(Home.TabChange(f, pt))) == (ScaleTooSmall in Validate(f))
    ensures (ScaleTooLarge in Validate(Home.TabChange(f, pt))) == (ScaleTooLarge in Validate(f))
  {
  }

  /** For a phone number as the page's phone filter stores it, the
      refinement's length check is "exactly ten digits". */
  lemma StoredPhoneLongEnough(f: Field)
    requires Home.PhoneStored(f)
    ensures (f.Given? && Utf16Length(StripSpaces(f.text)) >= 10) <==> (f.Given? && |Digits(f.text)| == 10)
  {
    if f.Given? {
      var d := Digits(f.text);
      DigitsOfDigits(d);
      Helpers.PhoneKeepsShape(d);
      StripSpacesIsDigits(f.text);
      Utf16OfBmp(d);
    }
  }
}

=== FILE: helpers.dfy ===
/** The number formatters and the left-rounded rectangle path of
    `src/lib/helpers.ts`. The formatters work on the digit string
    `value.replace(/\D/g, "")`; their regular expressions are stated here
    directly as the slices of that string they match. */
module Helpers {
  import opened Text

  function Sum(xs: seq<nat>): nat {
    if xs == [] then 0 else xs[0] + Sum(xs[1..])
  }

  /** Cuts `d` into consecutive groups whose lengths are `heads`, followed by
      one last group holding whatever remains: the reference grouping the
      formatters are compared against. */
  function Groups(d: string, heads: seq<nat>): (g: seq<string>)
    requires Sum(heads) <= |d|
    ensures |g| == |heads| + 1
    ensures forall i :: 0 <= i < |heads| ==> |g[i]| == heads[i]
    ensures |g[|heads|]| == |d| - Sum(heads)
    ensures Concat(g) == d
  {
    if heads == [] then
      assert Concat([d]) == d + Concat([]);
      [d]
    else
      var rest := Groups(d[heads[0]..], heads[1..]);
      var g := [d[..heads[0]]] + rest;
      assert g[1..] == rest;
      assert d == d[..heads[0]] + d[heads[0]..];
      g
  }

  /** The number of occurrences of `c` in `s`. */
  function Count(s: string, c: char): nat {
    if s == [] then 0 else (if s[0] == c then 1 else 0) + Count(s[1..], c)
  }

  lemma {:induction false} CountAppend(a: string, b: string, c: char)
    ensures Count(a + b, c) == Count(a, c) + Count(b, c)
  {
    if a != [] {
      assert (a + b)[0] == a[0];
      assert (a + b)[1..] == a[1..] + b;
      CountAppend(a[1..], b, c);
    } else {
      assert a + b == b;
    }
  }

  lemma CountOfDigits(s: string)
    requires AllDigits(s)
    ensures Count(s, ' ') == 0
  {
  }

  /** Joining `k` digit groups with spaces puts exactly `k - 1` spaces in. */
  lemma {:induction false} JoinSpaceCount(parts: seq<string>)
    requires |parts| >= 1
    requires forall i :: 0 <= i < |parts| ==> AllDigits(parts[i])
    ensures Count(JoinWithSpace(parts), ' ') == |parts| - 1
  {
    CountOfDigits(parts[0]);
    if |parts| > 1 {
      JoinSpaceCount(parts[1..]);
      CountAppend(parts[0] + " ", JoinWithSpace(parts[1..]), ' ');
      CountAppend(parts[0], " ", ' ');
    }
  }

  lemma {:induction false} GroupsAreDigits(d: string, heads: seq<nat>)
    requires AllDigits(d)
    requires Sum(heads) <= |d|
    ensures forall i :: 0 <= i < |Groups(d, heads)| ==> AllDigits(Groups(d, heads)[i])
  {
    if heads != [] {
      var rest := Groups(d[heads[0]..], heads[1..]);
      GroupsAreDigits(d[heads[0]..], heads[1..]);
      assert Groups(d, heads) == [d[..heads[0]]] + rest;
    }
  }

  /** `formatPhoneNumber`: ten digits are grouped 4-3-3; any other input is
      handed back exactly as typed, non-digits included. */
  function FormatPhoneNumber(value: string): (r: string)
    ensures |Digits(value)| != 10 ==> r == value
  {
    var d := Digits(value);
    if |d| == 10 then d[..4] + " " + d[4..7] + " " + d[7..] else value
  }

  /** The 4-3-3 table of `formatPhoneNumber`. */
  lemma PhoneGrouping(value: string)
    requires |Digits(value)| == 10
    ensures FormatPhoneNumber(value) == JoinWithSpace(Groups(Digits(value), [4, 3]))
  {
    var d := Digits(value);
    var g3 := Groups(d[4..][3..], []);
    assert g3 == [d[7..]] by { assert d[4..][3..] == d[7..]; }
    var g2 := Groups(d[4..], [3]);
    assert g2 == [d[4..7]] + g3 by { assert [3][1..] == []; assert d[4..][..3] == d[4..7]; }
    var g := Groups(d, [4, 3]);
    assert g == [d[..4]] + g2 by { assert [4, 3][1..] == [3]; }
    assert g == [d[..4], d[4..7], d[7..]];
    assert JoinWithSpace(g[1..]) == d[4..7] + " " + d[7..] by {
      assert g[1..] == [d[4..7], d[7..]];
      assert g[1..][1..] == [d[7..]];
    }
  }

  /** A formatted phone number has the digits of its input. */
  lemma PhoneDigitsPreserved(value: string)
    ensures Digits(FormatPhoneNumber(value)) == Digits(value)
  {
    var d := Digits(value);
    if |d| == 10 {
      PhoneGrouping(value);
      GroupsAreDigits(d, [4, 3]);
      JoinThenDigits(Groups(d, [4, 3]));
    }
  }

  /** `formatPhoneNumber(formatPhoneNumber(s)) == formatPhoneNumber(s)`. */
  lemma PhoneIdempotent(value: string)
    ensures FormatPhoneNumber(FormatPhoneNumber(value)) == FormatPhoneNumber(value)
  {
    PhoneDigitsPreserved(value);
  }

  /** On digits and spaces the phone format keeps to digits and spaces. */
  lemma PhoneKeepsShape(value: string)
    requires DigitsAndSpaces(value)
    ensures DigitsAndSpaces(FormatPhoneNumber(value))
  {
    if |Digits(value)| == 10 {
      PhoneGrouping(value);
      GroupsAreDigits(Digits(value), [4, 3]);
      JoinThenDigits(Groups(Digits(value), [4, 3]));
    }
  }

  /** The group lengths `formatBusinessNumber` puts before the last group, by
      digit count: up to 3 digits one group; 4 to 7 digits 3 + rest; 8 digits
      4 + 4; 9 or more digits 3 + 3 + rest. */
  function BusinessHeads(n: nat): (heads: seq<nat>)
    ensures Sum(heads) <= n
    ensures |heads| <= 2
  {
    if n <= 3 then []
    else if n <= 7 then [3]
    else if n == 8 then [4]
    else [3, 3]
  }

  /** `formatBusinessNumber`. Each branch's single, non-global replace matches
      from the first digit: `(\d{3})(\d{1,3})` on 4 to 6 digits and
      `(\d{3})(\d{1,4})` on 7 take every digit; `(\d{4})(\d{1,4})` on 8 takes
      all eight; `(\d{3})(\d{3})(\d{1,3})` on 9 takes all nine; and
      `(\d{3})(\d{3})(\d{1,4})` on 10 or more takes ten, leaving the overflow
      digits after the match untouched, glued to the last group. */
  function FormatBusinessNumber(value: string): (r: string)
    ensures r == [] <==> Digits(value) == []
  {
    var d := Digits(value);
    var n := |d|;
    if n == 0 then ""
    else if n <= 3 then d
    else if n <= 6 then d[..3] + " " + d[3..]
    else if n <= 7 then d[..3] + " " + d[3..7]
    else if n <= 8 then d[..4] + " " + d[4..8]
    else if n <= 9 then d[..3] + " " + d[3..6] + " " + d[6..9]
    else d[..3] + " " + d[3..6] + " " + d[6..10] + d[10..]
  }

  /** One step of the grouping: the first group, then the grouping of the rest. */
  lemma GroupsStep(d: string, heads: seq<nat>)
    requires heads != [] && Sum(heads) <= |d|
    ensures Groups(d, heads) == [d[..heads[0]]] + Groups(d[heads[0]..], heads[1..])
  {
  }

  lemma OneHead(d: string, heads: seq<nat>)
    requires |heads| == 1 && heads[0] <= |d|
    ensures Groups(d, heads) == [d[..heads[0]], d[heads[0]..]]
  {
    assert heads[1..] == [];
    assert Sum(heads) == heads[0] + Sum(heads[1..]);
    GroupsStep(d, heads);
  }

  lemma ThreeThree(d: string, heads: seq<nat>)
    requires |d| >= 6 && |heads| == 2 && heads[0] == 3 && heads[1] == 3 && Sum(heads) <= |d|
    ensures Groups(d, heads) == [d[..3], d[3..6], d[6..]]
  {
    var rest := heads[1..];
    assert rest[1..] == [];
    assert Sum(rest) == rest[0] + Sum(rest[1..]) == 3;
    assert Sum(heads) == heads[0] + Sum(rest) == 6;
    GroupsStep(d, heads);
    OneHead(d[3..], rest);
    assert d[3..][..3] == d[3..6];
    assert d[3..][3..] == d[6..];
  }

  lemma JoinTwo(x: string, y: string)
    ensures JoinWithSpace([x, y]) == x + " " + y
  {
    assert [x, y][1..] == [y];
  }

  lemma JoinThree(x: string, y: string, z: string)
    ensures JoinWithSpace([x, y, z]) == x + " " + y + " " + z
  {
    assert [x, y, z][1..] == [y, z];
    JoinTwo(y, z);
  }

  /** The bucket table: a non-empty digit string is grouped as `BusinessHeads`
      says. */
  lemma BusinessBuckets(value: string)
    requires Digits(value) != []
    ensures FormatBusinessNumber(value) == JoinWithSpace(Groups(Digits(value), BusinessHeads(|Digits(value)|)))
  {
    var n := |Digits(value)|;
    if n <= 3 {
      assert Groups(Digits(value), []) == [Digits(value)];
    } else if n <= 8 {
      TwoGroupBucket(value);
    } else {
      ThreeGroupBucket(value);
    }
  }

  lemma TwoGroupBucket(value: string)
    requires 4 <= |Digits(value)| <= 8
    ensures FormatBusinessNumber(value) == JoinWithSpace(Groups(Digits(value), BusinessHeads(|Digits(value)|)))
  {
    var d := Digits(value);
    var a := if |d| == 8 then 4 else 3;
    assert BusinessHeads(|d|) == [a];
    OneHead(d, BusinessHeads(|d|));
    JoinTwo(d[..a], d[a..]);
    assert |d| == 7 ==> d[3..7] == d[3..];
    assert |d| == 8 ==> d[4..8] == d[4..];
  }

  lemma ThreeGroupBucket(value: string)
    requires |Digits(value)| >= 9
    ensures FormatBusinessNumber(value) == JoinWithSpace(Groups(Digits(value), BusinessHeads(|Digits(value)|)))
  {
    var d := Digits(value);
    assert BusinessHeads(|d|) == [3, 3];
    ThreeThree(d, BusinessHeads(|d|));
    JoinThree(d[..3], d[3..6], d[6..]);
    if |d| == 9 {
      NineDigits(value);
    } else {
      OverflowDigits(value);
    }
  }

  lemma NineDigits(value: string)
    requires |Digits(value)| == 9
    ensures var d := Digits(value);
      FormatBusinessNumber(value) == d[..3] + " " + d[3..6] + " " + d[6..]
  {
    var d := Digits(value);
    assert d[6..9] == d[6..];
  }

  lemma OverflowDigits(value: string)
    requires |Digits(value)| >= 10
    ensures var d := Digits(value);
      FormatBusinessNumber(value) == d[..3] + " " + d[3..6] + " " + d[6..]
  {
    var d := Digits(value);
    var front := d[..3] + " " + d[3..6] + " ";
    assert d[6..] == d[6..10] + d[10..];
    assert front + d[6..10] + d[10..] == front + (d[6..10] + d[10..]);
  }

  /** The output of `formatBusinessNumber` holds only digits and spaces, and
      deleting the spaces gives exactly the input's digits. */
  lemma BusinessDigitsPreserved(value: string)
    ensures DigitsAndSpaces(FormatBusinessNumber(value))
    ensures RemoveBlanks(FormatBusinessNumber(value)) == Digits(value)
    ensures Digits(FormatBusinessNumber(value)) == Digits(value)
  {
    var d := Digits(value);
    if d != [] {
      BusinessBuckets(value);
      var g := Groups(d, BusinessHeads(|d|));
      GroupsAreDigits(d, BusinessHeads(|d|));
      JoinThenDigits(g);
      RemoveBlanksIsDigits(FormatBusinessNumber(value));
    }
  }

  /** There are 0, 1 or 2 spaces: one fewer than the groups of the table. */
  lemma BusinessSpaceCount(value: string)
    requires Digits(value) != []
    ensures Count(FormatBusinessNumber(value), ' ') == |BusinessHeads(|Digits(value)|)|
    ensures Count(FormatBusinessNumber(value), ' ') <= 2
  {
    var d := Digits(value);
    BusinessBuckets(value);
    GroupsAreDigits(d, BusinessHeads(|d|));
    JoinSpaceCount(Groups(d, BusinessHeads(|d|)));
  }

  /** `formatBusinessNumber` is idempotent: its output depends only on the
      digits, which it keeps. */
  lemma BusinessIdempotent(value: string)
    ensures FormatBusinessNumber(FormatBusinessNumber(value)) == FormatBusinessNumber(value)
  {
    BusinessDigitsPreserved(value);
  }

  function Min(a: int, b: int): int {
    if a <= b then a else b
  }

  /** The `groups` array of `formatAccountNumber`'s loop from index `i` on:
      `numbers.slice(i, i + 4)` for `i = 0, 4, 8, ...` while `i < n`. */
  function Slices(d: string, i: nat): seq<string>
    decreases |d| - i
  {
    if i >= |d| then [] else [d[i..Min(i + 4, |d|)]] + Slices(d, i + 4)
  }

  /** Splitting from the left gives ceil((n - i) / 4) groups of four, except
      the last, which holds one to four characters; together they are `d[i..]`. */
  lemma {:induction false} SlicesShape(d: string, i: nat)
    requires i < |d|
    ensures |Slices(d, i)| == (|d| - i + 3) / 4
    ensures forall k :: 0 <= k < |Slices(d, i)| - 1 ==> |Slices(d, i)[k]| == 4
    ensures 1 <= |Slices(d, i)[|Slices(d, i)| - 1]| <= 4
    ensures Concat(Slices(d, i)) == d[i..]
    decreases |d| - i
  {
    var s := Slices(d, i);
    if i + 4 >= |d| {
      assert Slices(d, i + 4) == [];
      assert d[i..Min(i + 4, |d|)] == d[i..];
      assert s == [d[i..]];
      assert Concat(s) == d[i..] + Concat([]);
    } else {
      SlicesShape(d, i + 4);
      assert s[1..] == Slices(d, i + 4);
      assert d[i..] == d[i..i + 4] + d[i + 4..];
    }
  }

  /** The character-level picture of `n >= 1` digits in blocks of four: a
      space at every fifth position, and the digits in order elsewhere. */
  ghost predicate InFours(r: string, d: string) {
    && |r| == |d| + (|d| - 1) / 4
    && forall k :: 0 <= k < |r| ==> if k % 5 == 4 then r[k] == ' ' else r[k] == d[k - k / 5]
  }

  /** There is only one way to write a digit string in blocks of four. */
  lemma InFoursUnique(r1: string, r2: string, d: string)
    requires InFours(r1, d) && InFours(r2, d)
    ensures r1 == r2
  {
  }

  lemma ShiftByFive(k: int)
    requires k >= 5
    ensures (k - 5) % 5 == k % 5 && (k - 5) / 5 == k / 5 - 1
  {
  }

  /** Joining the loop's slices with spaces writes the digits in blocks of four. */
  lemma {:induction false} JoinSlicesInFours(d: string, i: nat)
    requires i < |d|
    ensures InFours(JoinWithSpace(Slices(d, i)), d[i..])
    decreases |d| - i
  {
    var s := Slices(d, i);
    SlicesShape(d, i);
    if i + 4 >= |d| {
      assert d[i..Min(i + 4, |d|)] == d[i..];
      assert s == [d[i..]];
    } else {
      JoinSlicesInFours(d, i + 4);
      var rest := JoinWithSpace(Slices(d, i + 4));
      assert s[1..] == Slices(d, i + 4);
      var r := JoinWithSpace(s);
      assert r == d[i..i + 4] + " " + rest;
      assert d[i..][..4] == d[i..i + 4] && d[i..][4..] == d[i + 4..];
      InFoursCons(d[i..], rest);
    }
  }

  /** Four digits, a space, then the rest in blocks of four. */
  lemma InFoursCons(t: string, rest: string)
    requires |t| > 4 && InFours(rest, t[4..])
    ensures InFours(t[..4] + " " + rest, t)
  {
    var r := t[..4] + " " + rest;
    forall k | 0 <= k < |r|
      ensures if k % 5 == 4 then r[k] == ' ' else r[k] == t[k - k / 5]
    {
      if k >= 5 {
        assert r[k] == rest[k - 5];
        ShiftByFive(k);
      } else {
        assert k % 5 == k && k / 5 == 0;
      }
    }
  }

  /** `formatAccountNumber`: the digits in blocks of four from the left,
      joined by single spaces; no digits gives `""`. */
  function FormatAccountNumber(value: string): (r: string)
    ensures Digits(value) == [] ==> r == []
    ensures Digits(value) != [] ==> InFours(r, Digits(value))
  {
    var numbers := Digits(value);
    if |numbers| == 0 then ""
    else
      JoinSlicesInFours(numbers, 0);
      JoinWithSpace(Slices(numbers, 0))
  }

  /** Any string in blocks of four holds digits and spaces only, and deleting
      the spaces recovers the digits. */
  lemma InFoursDigits(r: string, d: string)
    requires |d| >= 1 && AllDigits(d)
    requires InFours(r, d)
    ensures DigitsAndSpaces(r)
    ensures Digits(r) == d
  {
    forall k | 0 <= k < |r|
      ensures IsDigit(r[k]) || r[k] == ' '
    {
      if k % 5 != 4 {
        assert 0 <= k - k / 5 < |d|;
      }
    }
    var s := Slices(d, 0);
    SlicesShape(d, 0);
    JoinSlicesInFours(d, 0);
    InFoursUnique(r, JoinWithSpace(s), d);
    forall i | 0 <= i < |s|
      ensures AllDigits(s[i])
    {
      SliceOfDigits(d, 0, i);
    }
    JoinThenDigits(s);
  }

  /** The two groupings part ways at nine digits: the business number puts a
      space after the third digit, the account number puts the fourth digit there. */
  lemma NineDigitsGroupedApart(value: string)
    requires |Digits(value)| == 9
    ensures FormatBusinessNumber(value) != FormatAccountNumber(value)
  {
    var d := Digits(value);
    NineDigits(value);
    var shown := FormatBusinessNumber(value);
    var r := FormatAccountNumber(value);
    assert shown[3] == ' ';
    assert r[3] == d[3];
    assert IsDigit(d[3]);
  }

  lemma {:induction false} SliceOfDigits(d: string, i: nat, k: nat)
    requires AllDigits(d)
    requires k < |Slices(d, i)|
    ensures AllDigits(Slices(d, i)[k])
    decreases |d| - i
  {
    if k > 0 {
      SliceOfDigits(d, i + 4, k - 1);
    }
  }

  /** Deleting the spaces of a formatted account number recovers the digits,
      and the formatter is idempotent. */
  lemma AccountDigitsPreserved(value: string)
    ensures DigitsAndSpaces(FormatAccountNumber(value))
    ensures RemoveBlanks(FormatAccountNumber(value)) == Digits(value)
    ensures FormatAccountNumber(FormatAccountNumber(value)) == FormatAccountNumber(value)
  {
    var d := Digits(value);
    var r := FormatAccountNumber(value);
    if d != [] {
      InFoursDigits(r, d);
      RemoveBlanksIsDigits(r);
    }
  }

  /** A point of a canvas path. */
  datatype Point = Point(x: real, y: real)

  /** The path operations `roundRectLeft` issues: `moveTo`, `lineTo` and
      `arcTo(corner, towards, radius)`. */
  datatype PathOp = MoveTo(p: Point) | LineTo(p: Point) | ArcTo(corner: Point, towards: Point, radius: real)

  function MinReal(a: real, b: real): real {
    if a <= b then a else b
  }

  /** The two clamps of `roundRectLeft`: the radius is first limited by the
      width, then by the height. */
  function ClampRadius(width: real, height: real, radius: real): (r: real)
    ensures r == MinReal(MinReal(radius, width / 2.0), height / 2.0)
    ensures width >= 0.0 && height >= 0.0 && radius >= 0.0 ==> 0.0 <= r
  {
    var r1 := if width < 2.0 * radius then width / 2.0 else radius;
    if height < 2.0 * r1 then height / 2.0 else r1
  }

  /** `roundRectLeft`: a rectangle whose two left corners are rounded. */
  function RoundRectLeft(x: real, y: real, width: real, height: real, radius: real): (path: seq<PathOp>)
    ensures |path| == 7
  {
    var r := ClampRadius(width, height, radius);
    [ MoveTo(Point(x + r, y)),
      LineTo(Point(x + width, y)),
      LineTo(Point(x + width, y + height)),
      LineTo(Point(x + r, y + height)),
      ArcTo(Point(x, y + height), Point(x, y + height - r), r),
      LineTo(Point(x, y + r)),
      ArcTo(Point(x, y), Point(x + r, y), r) ]
  }

  /** The point a path operation leaves the pen at. For `arcTo` between an
      axis-parallel incoming and outgoing segment, whose tangent points both lie
      `radius` away from the corner, the arc ends at `towards`. */
  function EndPoint(op: PathOp): Point {
    match op
    case MoveTo(p) => p
    case LineTo(p) => p
    case ArcTo(_, t, _) => t
  }

  /** Each arc of the path turns a right-angle corner whose tangent points lie
      one radius from it, so the arc ends where `EndPoint` says. */
  ghost predicate RightAngleArc(from: Point, op: PathOp) {
    op.ArcTo? &&
    var c := op.corner;
    var t := op.towards;
    ((from.y == c.y && (from.x - c.x == op.radius || c.x - from.x == op.radius)
       && t.x == c.x && (t.y - c.y == op.radius || c.y - t.y == op.radius))
     || (from.x == c.x && (from.y - c.y == op.radius || c.y - from.y == op.radius)
       && t.y == c.y && (t.x - c.x == op.radius || c.x - t.x == op.radius)))
  }

  /** The path starts at `(x + r, y)` and its last arc returns there, with `r`
      the clamped radius; only the two left corners are arcs, and each is a
      right-angle turn one radius away from the straight segments. */
  lemma RoundRectLeftShape(x: real, y: real, width: real, height: real, radius: real)
    ensures var path := RoundRectLeft(x, y, width, height, radius);
      var r := ClampRadius(width, height, radius);
      && path[0] == MoveTo(Point(x + r, y))
      && EndPoint(path[6]) == Point(x + r, y)
      && (forall i :: 0 <= i < 7 && path[i].ArcTo? ==> i in {4, 6} && path[i].corner.x == x && path[i].radius == r)
      && RightAngleArc(EndPoint(path[3]), path[4])
      && RightAngleArc(EndPoint(path[5]), path[6])
  {
  }
}

=== FILE: home.dfy ===
/** The page of `src/routes/index.tsx`: the display values and QR payload it
    derives from the form, the per-field input filters, the tab-change
    handler, and its own older inline copies of the exporter and the
    preview. */
module Home {
  import opened Types
  import opened Text
  import opened Policy
  import opened Helpers
  import Raster
  import Preview

  /** The page's own, unused `formatAccountNumber`: when the input is one
      run of digits once its whitespace is deleted, the digits in blocks of
      four; any other input, the blank one included, is handed back as
      typed. */
  function PageAccountFormat(value: string): (r: string)
    ensures var n := StripSpaces(value);
      && (n != [] && AllDigits(n) ==> InFours(r, n))
      && (n == [] || !AllDigits(n) ==> r == value)
  {
    var numbers := StripSpaces(value);
    if numbers == [] || !AllDigits(numbers) then value
    else
      JoinSlicesInFours(numbers, 0);
      JoinWithSpace(Slices(numbers, 0))
  }

  /** On digits and spaces with at least one digit, the page's copy and the
      shared `formatAccountNumber` write the same blocks of four. */
  lemma PageAccountAgrees(value: string)
    requires DigitsAndSpaces(value) && Digits(value) != []
    ensures PageAccountFormat(value) == FormatAccountNumber(value)
  {
    StripSpacesIsDigits(value);
    InFoursUnique(PageAccountFormat(value), FormatAccountNumber(value), Digits(value));
  }

  /** The two copies part on any character that is neither a digit nor
      whitespace: the page's copy keeps the input, the shared one drops it. */
  lemma PageAccountKeepsOtherText(value: string, i: nat)
    requires i < |value| && !IsDigit(value[i]) && !IsSpace(value[i])
    ensures PageAccountFormat(value) == value
    ensures FormatAccountNumber(value) != value
  {
    FilterKeepsMember(value, NotSpace, i);
    var n := StripSpaces(value);
    var k :| 0 <= k < |n| && n[k] == value[i];
    assert !AllDigits(n);
    AccountDigitsPreserved(value);
  }

  /** The two copies part on a blank input too: the page's copy keeps the
      blanks, the shared one gives `""`. */
  lemma PageAccountKeepsBlank(value: string)
    requires Blank(value)
    ensures PageAccountFormat(value) == value
    ensures FormatAccountNumber(value) == []
  {
    FilterDropsAll(value, NotSpace);
    FilterDropsAll(value, IsDigit);
  }

  /** The placeholders an empty field falls back to. */
  const PhonePlaceholder: string := "0712 345 678"
  const PhoneQrPlaceholder: string := "0712345678"
  const NamePlaceholder: string := "JOHN DOE"
  const BusinessPlaceholder: string := "123456"

  /** The scheme tag that opens each QR payload. */
  function QrTag(pt: PaymentType): (s: string)
    ensures |s| == 3 && s[2] == '|'
  {
    match pt
    case SendMoney => "SM|"
    case Paybill => "PB|"
    case TillNumber => "BG|"
  }

  /** `getCurrentDisplayValues`: Send Money shows the stored phone and name,
      Paybill and Till the business format of their numbers; the QR payload
      carries the numbers with whitespace removed. */
  function CurrentDisplayValues(f: PaymentForm): (dv: DisplayValues)
    ensures |dv.qrData| >= 3 && dv.qrData[..3] == QrTag(f.paymentType)
    ensures f.paymentType == SendMoney ==> dv.primaryValue != [] && dv.secondaryValue != []
    ensures f.paymentType == TillNumber ==> dv.secondaryValue == []
    ensures f.paymentType != SendMoney ==> DigitsAndSpaces(dv.primaryValue) && DigitsAndSpaces(dv.secondaryValue)
    ensures f.paymentType == SendMoney ==>
      && dv.primaryValue == (if Falsy(f.phoneNumber) then PhonePlaceholder else f.phoneNumber.text)
      && dv.secondaryValue == (if Falsy(f.name) then NamePlaceholder else f.name.text)
    ensures f.paymentType == Paybill ==>
      && RemoveBlanks(dv.primaryValue) == Digits(Or(f.paybillNumber, BusinessPlaceholder))
      && RemoveBlanks(dv.secondaryValue) == Digits(Or(f.accountNumber, BusinessPlaceholder))
    ensures f.paymentType == TillNumber ==> RemoveBlanks(dv.primaryValue) == Digits(Or(f.tillNumber, BusinessPlaceholder))
  {
    var tag := QrTag(f.paymentType);
    match f.paymentType
    case SendMoney =>
      Values(tag, Or(f.phoneNumber, PhonePlaceholder), Or(f.name, NamePlaceholder),
        StripSpaces(Or(f.phoneNumber, PhoneQrPlaceholder)))
    case Paybill =>
      BusinessValues(tag, Or(f.paybillNumber, BusinessPlaceholder), Or(f.accountNumber, BusinessPlaceholder))
    case TillNumber =>
      var till := Or(f.tillNumber, BusinessPlaceholder);
      BusinessDigitsPreserved(till);
      Values(tag, FormatBusinessNumber(till), "", StripSpaces(till))
  }

  /** The display values of a payload `tag + carried`. */
  function Values(tag: string, primary: string, secondary: string, carried: string): (dv: DisplayValues)
    requires |tag| == 3
    ensures dv.primaryValue == primary && dv.secondaryValue == secondary
    ensures |dv.qrData| >= 3 && dv.qrData[..3] == tag && dv.qrData[3..] == carried
  {
    DisplayValues(primary, secondary, tag + carried)
  }

  /** The Paybill values: both numbers in the business format, both carried
      in the payload, separated by `|`. */
  function BusinessValues(tag: string, paybill: string, account: string): (dv: DisplayValues)
    requires |tag| == 3
    ensures DigitsAndSpaces(dv.primaryValue) && DigitsAndSpaces(dv.secondaryValue)
    ensures |dv.qrData| >= 3 && dv.qrData[..3] == tag
    ensures dv.qrData == tag + StripSpaces(paybill) + "|" + StripSpaces(account)
    ensures RemoveBlanks(dv.primaryValue) == Digits(paybill) && RemoveBlanks(dv.secondaryValue) == Digits(account)
  {
    BusinessDigitsPreserved(paybill);
    BusinessDigitsPreserved(account);
    var carried := StripSpaces(paybill) + "|" + StripSpaces(account);
    assert (tag + carried)[..3] == tag;
    DisplayValues(FormatBusinessNumber(paybill), FormatBusinessNumber(account), tag + carried)
  }

  /** A nine-digit Paybill account is shown in the business grouping, three
      by three, not in the account grouping of four. */
  lemma PaybillAccountInThrees(f: PaymentForm)
    requires f.paymentType == Paybill && f.accountNumber.Given? && |Digits(f.accountNumber.text)| == 9
    ensures var d := Digits(f.accountNumber.text);
      var shown := CurrentDisplayValues(f).secondaryValue;
      && shown == d[..3] + " " + d[3..6] + " " + d[6..]
      && shown != FormatAccountNumber(f.accountNumber.text)
  {
    var v := f.accountNumber.text;
    var d := Digits(v);
    assert v != [];
    assert Or(f.accountNumber, BusinessPlaceholder) == v;
    NineDigits(v);
    NineDigitsGroupedApart(v);
  }

  /** The payload of each type, spelled out. */
  lemma QrPayloads(f: PaymentForm)
    ensures var q := CurrentDisplayValues(f).qrData;
      match f.paymentType
      case SendMoney => q == "SM|" + StripSpaces(Or(f.phoneNumber, PhoneQrPlaceholder))
      case Paybill => q == "PB|" + StripSpaces(Or(f.paybillNumber, BusinessPlaceholder)) + "|"
                          + StripSpaces(Or(f.accountNumber, BusinessPlaceholder))
      case TillNumber => q == "BG|" + StripSpaces(Or(f.tillNumber, BusinessPlaceholder))
  {
    var tag := QrTag(f.paymentType);
    match f.paymentType
    case SendMoney =>
      assert tag == "SM|";
    case Paybill =>
      var a, b := Or(f.paybillNumber, BusinessPlaceholder), Or(f.accountNumber, BusinessPlaceholder);
      assert CurrentDisplayValues(f) == BusinessValues(tag, a, b);
      assert tag == "PB|";
    case TillNumber =>
      assert tag == "BG|";
  }

  lemma TagNoSpace(tag: string)
    requires tag == "SM|" || tag == "PB|" || tag == "BG|"
    ensures NoSpace(tag) && NoSpace(tag + "|")
  {
  }

  /** The payload carries no whitespace. */
  lemma QrDataHasNoSpace(f: PaymentForm)
    ensures NoSpace(CurrentDisplayValues(f).qrData)
  {
    QrPayloads(f);
    match f.paymentType
    case SendMoney =>
      TagNoSpace("SM|");
      NoSpaceConcat("SM|", StripSpaces(Or(f.phoneNumber, PhoneQrPlaceholder)));
    case Paybill =>
      var a := StripSpaces(Or(f.paybillNumber, BusinessPlaceholder));
      TagNoSpace("PB|");
      NoSpaceConcat("PB|", a);
      NoSpaceConcat("PB|" + a, "|");
      NoSpaceConcat("PB|" + a + "|", StripSpaces(Or(f.accountNumber, BusinessPlaceholder)));
    case TillNumber =>
      TagNoSpace("BG|");
      NoSpaceConcat("BG|", StripSpaces(Or(f.tillNumber, BusinessPlaceholder)));
  }

  /** The shown phone placeholder, whitespace deleted, is its three groups. */
  lemma ShownPlaceholderStripped(s: string)
    requires s == PhonePlaceholder
    ensures StripSpaces(s) == "0712" + "345" + "678"
  {
    assert s == "0712" + " " + "345" + " " + "678";
    StripThreeGroups(s, "0712", "345", "678");
  }

  /** The carried phone placeholder has no whitespace to delete. */
  lemma CarriedPlaceholderStripped(s: string)
    requires s == PhoneQrPlaceholder
    ensures StripSpaces(s) == "0712" + "345" + "678"
  {
    var a, b, c := "0712", "345", "678";
    assert s == a + b + c;
    assert NoSpace(a) && NoSpace(b) && NoSpace(c);
    NoSpaceConcat(a, b);
    NoSpaceConcat(a + b, c);
    StripNoSpace(s);
  }

  /** For Send Money the payload encodes exactly the number the poster shows,
      placeholder included. */
  lemma SendMoneyQrMatchesShown(f: PaymentForm)
    requires f.paymentType == SendMoney
    ensures CurrentDisplayValues(f).qrData == "SM|" + StripSpaces(CurrentDisplayValues(f).primaryValue)
  {
    if Falsy(f.phoneNumber) {
      ShownPlaceholderStripped(Or(f.phoneNumber, PhonePlaceholder));
      CarriedPlaceholderStripped(Or(f.phoneNumber, PhoneQrPlaceholder));
    }
  }

  /** What the phone filter can store: nothing yet, or the phone format of at
      most 10 digits. */
  predicate PhoneStored(f: Field) {
    f.Missing? || (|Digits(f.text)| <= 10 && f.text == FormatPhoneNumber(Digits(f.text)))
  }

  /** What the paybill, account and till filters can store: nothing yet, or
      the business format of at most 10 digits. */
  predicate BusinessStored(f: Field) {
    f.Missing? || (|Digits(f.text)| <= 10 && f.text == FormatBusinessNumber(Digits(f.text)))
  }

  /** The phone field's `onChange`: keep the digits; an edit with more than
      10 of them is ignored, otherwise the phone format of the digits is
      stored. */
  function PhoneInput(stored: Field, typed: string): (r: Field)
    ensures |Digits(typed)| > 10 ==> r == stored
    ensures |Digits(typed)| <= 10 ==> r.Given? && Digits(r.text) == Digits(typed) && DigitsAndSpaces(r.text)
    ensures |Digits(typed)| < 10 ==> r == Given(Digits(typed))
  {
    var value := Digits(typed);
    if |value| <= 10 then
      PhoneDigitsPreserved(value);
      DigitsOfDigits(value);
      PhoneKeepsShape(value);
      Given(FormatPhoneNumber(value))
    else stored
  }

  /** The phone filter only ever stores what `PhoneStored` allows. */
  lemma PhoneInputKeepsStored(stored: Field, typed: string)
    requires PhoneStored(stored)
    ensures PhoneStored(PhoneInput(stored, typed))
  {
    var value := Digits(typed);
    if |value| <= 10 {
      PhoneDigitsPreserved(value);
      DigitsOfDigits(value);
    }
  }

  /** The paybill, account and till fields' `onChange`: keep the digits; an
      edit with more than 10 of them is ignored, otherwise the business format
      of the digits is stored. */
  function BusinessInput(stored: Field, typed: string): (r: Field)
    ensures |Digits(typed)| > 10 ==> r == stored
    ensures |Digits(typed)| <= 10 ==> r.Given? && Digits(r.text) == Digits(typed) && DigitsAndSpaces(r.text)
    ensures |Digits(typed)| <= 10 ==> (r.text == [] <==> Digits(typed) == [])
  {
    var value := Digits(typed);
    if |value| <= 10 then
      BusinessDigitsPreserved(value);
      DigitsOfDigits(value);
      Given(FormatBusinessNumber(value))
    else stored
  }

  /** The business filters only ever store what `BusinessStored` allows. */
  lemma BusinessInputKeepsStored(stored: Field, typed: string)
    requires BusinessStored(stored)
    ensures BusinessStored(BusinessInput(stored, typed))
  {
    var value := Digits(typed);
    if |value| <= 10 {
      BusinessDigitsPreserved(value);
      DigitsOfDigits(value);
    }
  }

  /** A stored business number is its own display: formatting it again
      changes nothing, and deleting its whitespace gives its digits. */
  lemma BusinessStoredDisplay(f: Field)
    requires BusinessStored(f) && f.Given?
    ensures FormatBusinessNumber(f.text) == f.text
    ensures StripSpaces(f.text) == Digits(f.text)
  {
    BusinessIdempotent(Digits(f.text));
    BusinessDigitsPreserved(Digits(f.text));
    StripSpacesIsDigits(f.text);
  }

  /** Every field as the filters leave it. */
  predicate FieldsStored(f: PaymentForm) {
    PhoneStored(f.phoneNumber) && BusinessStored(f.paybillNumber) && BusinessStored(f.accountNumber)
    && BusinessStored(f.tillNumber)
  }

  /** The business value shown for a field, whitespace deleted, is what the
      payload carries for it. */
  lemma BusinessShownIsCarried(f: Field)
    requires BusinessStored(f)
    ensures StripSpaces(FormatBusinessNumber(Or(f, BusinessPlaceholder))) == StripSpaces(Or(f, BusinessPlaceholder))
  {
    var v := Or(f, BusinessPlaceholder);
    if Falsy(f) {
      BusinessDigitsPreserved(v);
      StripSpacesIsDigits(FormatBusinessNumber(v));
      assert AllDigits(v);
      DigitsOfDigits(v);
      FilterKeepsAll(v, NotSpace);
    } else {
      BusinessStoredDisplay(f);
    }
  }

  /** With fields as the filters leave them, every payload encodes exactly
      the numbers the poster shows. */
  lemma QrMatchesShown(f: PaymentForm)
    requires FieldsStored(f)
    ensures var dv := CurrentDisplayValues(f);
      match f.paymentType
      case SendMoney => dv.qrData == "SM|" + StripSpaces(dv.primaryValue)
      case Paybill => dv.qrData == "PB|" + StripSpaces(dv.primaryValue) + "|" + StripSpaces(dv.secondaryValue)
      case TillNumber => dv.qrData == "BG|" + StripSpaces(dv.primaryValue)
  {
    match f.paymentType
    case SendMoney =>
      SendMoneyQrMatchesShown(f);
    case Paybill =>
      BusinessShownIsCarried(f.paybillNumber);
      BusinessShownIsCarried(f.accountNumber);
    case TillNumber =>
      BusinessShownIsCarried(f.tillNumber);
  }

  /** With fields as the filters leave them the primary value is never
      empty, so the exported image draws its QR block exactly when the QR
      code is switched on. */
  lemma PrimaryShownUnderFilters(f: PaymentForm, template: Template)
    requires FieldsStored(f)
    ensures CurrentDisplayValues(f).primaryValue != []
    ensures var dv := CurrentDisplayValues(f);
      (Raster.QrCommands(f.showQrCode, dv, template.size.width as real, template.size.height as real, 0) != [])
      <==> f.showQrCode
  {
    var dv := CurrentDisplayValues(f);
    match f.paymentType
    case SendMoney =>
    case Paybill =>
      BusinessShownIsCarried(f.paybillNumber);
      if Falsy(f.paybillNumber) {
        assert Digits(BusinessPlaceholder) != [] by { assert IsDigit(BusinessPlaceholder[0]); }
      } else {
        BusinessStoredDisplay(f.paybillNumber);
      }
    case TillNumber =>
      if Falsy(f.tillNumber) {
        assert Digits(BusinessPlaceholder) != [] by { assert IsDigit(BusinessPlaceholder[0]); }
      } else {
        BusinessStoredDisplay(f.tillNumber);
      }
  }

  /** The name field's `onChange`: the typed text in upper case. */
  function NameInput(typed: string): (r: Field)
    ensures r.Given? && |r.text| == |typed|
    ensures forall i :: 0 <= i < |r.text| ==> !('a' <= r.text[i] <= 'z')
  {
    Given(ToUpper(typed))
  }

  /** Re-typing the stored name stores it unchanged. */
  lemma NameInputStable(typed: string)
    ensures NameInput(NameInput(typed).text) == NameInput(typed)
  {
    ToUpperIdempotent(typed);
  }

  /** The title a tab sets: the union member with blanks deleted and
      underscores read as spaces. */
  function TabTitle(pt: PaymentType): (t: string)
    ensures |t| == |PaymentTypeName(pt)|
    ensures forall i :: 0 <= i < |t| ==>
      t[i] == if PaymentTypeName(pt)[i] == '_' then ' ' else PaymentTypeName(pt)[i]
  {
    var name := PaymentTypeName(pt);
    assert forall i :: 0 <= i < |name| ==> NotBlankChar(name[i]);
    FilterKeepsAll(name, NotBlankChar);
    ReplaceChar(RemoveBlanks(name), '_', ' ')
  }

  /** Reading the title's spaces back as underscores gives the union member:
      the title determines the tab. */
  lemma TabTitleRoundTrip(pt: PaymentType)
    ensures ReplaceChar(TabTitle(pt), ' ', '_') == PaymentTypeName(pt)
  {
    var name := PaymentTypeName(pt);
    var t := TabTitle(pt);
    var r := ReplaceChar(t, ' ', '_');
    forall i | 0 <= i < |r|
      ensures r[i] == name[i]
    {
      assert 'A' <= name[i] <= 'Z' || name[i] == '_';
    }
  }

  /** The title determines the tab. */
  lemma TabTitleInjective(a: PaymentType, b: PaymentType)
    ensures TabTitle(a) == TabTitle(b) ==> a == b
  {
    TabTitleRoundTrip(a);
    TabTitleRoundTrip(b);
    PaymentTypeNameInjective(a, b);
  }

  /** The tabs' `onValueChange`: switch the type, set the title, and switch
      the QR code off for Paybill and on otherwise; nothing else changes. */
  function TabChange(f: PaymentForm, pt: PaymentType): (g: PaymentForm)
    ensures g.paymentType == pt && g.title == TabTitle(pt) && (g.showQrCode <==> pt != Paybill)
    ensures g.phoneNumber == f.phoneNumber && g.paybillNumber == f.paybillNumber
    ensures g.accountNumber == f.accountNumber && g.tillNumber == f.tillNumber && g.name == f.name
    ensures g.selectedColor == f.selectedColor && g.showName == f.showName && g.fontScale == f.fontScale
  {
    f.(paymentType := pt, title := TabTitle(pt), showQrCode := pt != Paybill)
  }

  /** Only the last tab change counts. */
  lemma TabChangeLastWins(f: PaymentForm, a: PaymentType, b: PaymentType)
    ensures TabChange(TabChange(f, a), b) == TabChange(f, b)
  {
  }

  /** `getPaymentTypeText`: the heading's name of the payment type. */
  function PaymentTypeText(pt: PaymentType): (s: string)
    ensures s != []
  {
    match pt
    case SendMoney => "Phone Number"
    case Paybill => "Paybill"
    case TillNumber => "Till Number"
  }

  /** The heading names tell the types apart. */
  lemma PaymentTypeTextInjective(a: PaymentType, b: PaymentType)
    ensures PaymentTypeText(a) == PaymentTypeText(b) ==> a == b
  {
    if a != b {
      assert PaymentTypeText(a)[1] != PaymentTypeText(b)[1] || |PaymentTypeText(a)| != |PaymentTypeText(b)|;
    }
  }

  /** The older inline exporter's font sizes: those of the exporter without a
      font scale. */
  function InlineFonts(width: real, height: real): (fonts: Raster.Fonts)
    ensures fonts == Raster.FontSizes(width, height, 1.0)
  {
    var side := Helpers.MinReal(width, height);
    var title := Raster.Round(side * 0.1);
    Raster.Fonts(title, Raster.Round(side * 0.11), Raster.Round(side * 0.1), Raster.Round(title as real * 0.75))
  }

  /** The passes of the inline `handleDownload`: the same fill, text and QR
      passes as the exporter, but with the colour and title used as they
      are, no font scale, and no rule pass. */
  function InlinePasses(p: Raster.PosterParams): (ps: Raster.Passes)
    ensures ps.rules == []
  {
    var width := p.template.size.width as real;
    var height := p.template.size.height as real;
    var fonts := InlineFonts(width, height);
    Raster.Passes(
      Raster.Backdrop(width, height),
      Raster.BandFills(Raster.FillPass(p.paymentType, p.showName, width, height), p.selectedColor),
      [],
      Raster.TextPass(p.paymentType, p.showName, p.showQrCode, ToUpper(p.title), fonts, p.displayValues, width, height),
      Raster.QrCommands(p.showQrCode, p.displayValues, width, height, fonts.title))
  }

  /** `handleDownload`: nothing without the poster element or a 2D context;
      otherwise the inline drawing under the exporter's file name. */
  function HandleDownload(p: Raster.PosterParams, previewMounted: bool, canvasAvailable: bool): (e: Option<Raster.Export>)
    ensures e.Some? <==> previewMounted && canvasAvailable
    ensures e.Some? ==> e.value.filename == Raster.Filename(p.paymentType, p.displayValues.primaryValue, p.template.slug)
  {
    if !previewMounted || !canvasAvailable then None
    else Some(Raster.Export(Raster.Flatten(InlinePasses(p)), Raster.Filename(p.paymentType, p.displayValues.primaryValue, p.template.slug)))
  }

  /** With a colour and a title given, the inline exporter is the exporter at
      font scale 1 with the rule pass dropped; and it never reads the font
      scale. */
  lemma InlineIsExporterWithoutRules(p: Raster.PosterParams, s: real)
    requires p.selectedColor != [] && p.title != []
    ensures InlinePasses(p) == Raster.PosterPasses(p.(fontScale := 1.0)).(rules := [])
    ensures InlinePasses(p) == InlinePasses(p.(fontScale := s))
  {
  }

  /** The two exporters part on an empty title: the inline one draws it
      empty, the exporter draws "SEND MONEY". */
  lemma InlineEmptyTitle(p: Raster.PosterParams)
    requires p.title == []
    ensures InlinePasses(p).texts[0].text == []
    ensures Raster.PosterPasses(p).texts[0].text == "SEND MONEY"
  {
  }

  /** The inline preview's fixed size classes. */
  const InlineValueClass: string := "text-2xl sm:text-2xl md:text-2xl lg:text-4xl"
  const InlineLabelClass: string := "text-sm sm:text-base md:text-lg"

  /** The older inline preview: the preview markup with fixed classes. */
  function InlinePreview(pt: PaymentType, showName: bool, showQr: bool, title: string, dv: DisplayValues): (t: Preview.Tree)
    ensures |t.blocks| == |Layout(pt, showName, showQr).sections|
  {
    Preview.PreviewFollowsLayout(pt, showName, showQr, title, InlineValueClass, InlineLabelClass, dv);
    Preview.RenderWith(pt, showName, showQr, title, InlineValueClass, InlineLabelClass, dv)
  }

  /** The inline preview is the preview at the default font scale, except
      that its label class lacks the large-screen step. */
  lemma InlinePreviewAtDefaultScale(pt: PaymentType, showName: bool, showQr: bool, title: string, dv: DisplayValues)
    ensures InlineValueClass == Preview.FontSizeClass(1.0)
    ensures InlineLabelClass != Preview.LabelFontSizeClass(1.0)
    ensures InlineLabelClass == Preview.LabelFontSizeClass(1.0)[..|InlineLabelClass|]
    ensures InlinePreview(pt, showName, showQr, title, dv)
      == Preview.RenderWith(pt, showName, showQr, title, Preview.FontSizeClass(1.0), InlineLabelClass, dv)
  {
  }
}

=== FILE: policy.dfy ===
/** The layout policy both renderers follow, stated once: which horizontal
    bands a poster has, in which order and on which background, where the
    heavy rules around the primary value go, whether the QR strip is carved
    out, and the two value labels. Neither renderer calls this module; each
    has its own branching (modules `Raster`, `Preview`, `Home`) and is proved
    to agree with it. */
module Policy {
  import opened Types

  datatype Slot = Primary | Secondary

  datatype SectionKind = Title | Label(slot: Slot) | Value(slot: Slot)

  datatype Background = Color | White | Black

  /** One horizontal band of the poster. */
  datatype Section = Section(kind: SectionKind, background: Background)

  /** The whole arrangement: bands top to bottom, the rules above and below
      the primary value, and the QR strip that also shifts every text block
      left. */
  datatype Arrangement = Arrangement(
    sections: seq<Section>,
    ruleAbovePrimary: bool,
    ruleBelowPrimary: bool,
    qrStrip: bool)

  /** A band below the primary value: the name for Send Money when it is
      shown, the account number for Paybill. */
  predicate HasSecondarySection(pt: PaymentType, showName: bool) {
    (pt == SendMoney && showName) || pt == Paybill
  }

  /** Black label bands: Paybill only. */
  predicate HasBlackSections(pt: PaymentType) {
    pt == Paybill
  }

  /** The layout: title on the colour, then for Paybill a black label band,
      the primary value on white, then for Paybill a second black label band,
      and the secondary value on the colour when there is one. Layouts without
      black bands put a heavy rule above the primary value, and a second one
      below it when a secondary band follows. */
  function Layout(pt: PaymentType, showName: bool, showQr: bool): (a: Arrangement)
    ensures |a.sections| == (if pt == Paybill then 5 else if HasSecondarySection(pt, showName) then 3 else 2)
    ensures a.sections[0] == Section(Title, Color)
    ensures Section(Value(Primary), White) in a.sections
    ensures (exists i :: 0 <= i < |a.sections| && a.sections[i].background == Black) <==> pt == Paybill
    ensures a.sections[|a.sections| - 1].background == Color <==> HasSecondarySection(pt, showName)
    ensures a.ruleAbovePrimary <==> pt != Paybill
    ensures a.ruleBelowPrimary <==> (pt != Paybill && HasSecondarySection(pt, showName))
    ensures a.qrStrip == showQr
  {
    var black := HasBlackSections(pt);
    var secondary := HasSecondarySection(pt, showName);
    var sections :=
      [Section(Title, Color)]
      + (if black then [Section(Label(Primary), Black)] else [])
      + [Section(Value(Primary), White)]
      + (if secondary && black then [Section(Label(Secondary), Black)] else [])
      + (if secondary then [Section(Value(Secondary), Color)] else []);
    assert black ==> sections[1].background == Black;
    assert !black ==> sections == [Section(Title, Color), Section(Value(Primary), White)]
                                  + (if secondary then [Section(Value(Secondary), Color)] else []);
    Arrangement(sections, !black, !black && secondary, showQr)
  }

  /** Text is white on the colour and on black, black on white. */
  predicate WhiteText(s: Section) {
    s.background != White
  }

  /** The label of the primary value's black band, in capitals. */
  function PrimaryLabel(pt: PaymentType): (s: string)
    ensures s != []
    ensures forall i :: 0 <= i < |s| ==> 'A' <= s[i] <= 'Z' || s[i] == ' '
  {
    match pt
    case SendMoney => "PHONE NUMBER"
    case Paybill => "PAYBILL NUMBER"
    case TillNumber => "TILL NUMBER"
  }

  /** The label of the secondary value: non-empty exactly when there is a
      secondary band. */
  function SecondaryLabel(pt: PaymentType, showName: bool): (s: string)
    ensures s != [] <==> HasSecondarySection(pt, showName)
  {
    match pt
    case SendMoney => if showName then "NAME" else ""
    case Paybill => "ACCOUNT NUMBER"
    case TillNumber => ""
  }

  /** The text a band shows, in both renderers: the title, a label, or a
      display value. */
  function SectionText(k: SectionKind, pt: PaymentType, showName: bool, title: string, dv: DisplayValues): string {
    match k
    case Title => title
    case Label(Primary) => PrimaryLabel(pt)
    case Value(Primary) => dv.primaryValue
    case Label(Secondary) => SecondaryLabel(pt, showName)
    case Value(Secondary) => dv.secondaryValue
  }

  /** The three poster shapes: every combination of inputs lands on one of
      them, and the QR toggle never changes the bands. */
  lemma LayoutTable(pt: PaymentType, showName: bool, showQr: bool)
    ensures var s := Layout(pt, showName, showQr).sections;
      && (pt == Paybill ==> s == [Section(Title, Color), Section(Label(Primary), Black), Section(Value(Primary), White),
                                   Section(Label(Secondary), Black), Section(Value(Secondary), Color)])
      && (pt == SendMoney && showName ==> s == [Section(Title, Color), Section(Value(Primary), White), Section(Value(Secondary), Color)])
      && (pt != Paybill && !HasSecondarySection(pt, showName) ==> s == [Section(Title, Color), Section(Value(Primary), White)])
      && s == Layout(pt, showName, !showQr).sections
  {
  }
}

=== FILE: preview.dfy ===
/** The on-screen preview of `src/components/poster-preview.tsx`: a CSS grid
    whose row weights, children, borders, text classes and QR strip are
    decided by the payment type and the toggles. The markup is abstracted to
    the decisions it encodes. */
module Preview {
  import opened Types
  import opened Policy
  import Raster

  /** Which of the six size buckets a font scale falls in; a scale on a
      threshold belongs to the bucket below it. */
  function FontBucket(fontScale: real): (b: nat)
    ensures b <= 5
    ensures b == 2 <==> 0.9 < fontScale <= 1.1
  {
    if fontScale <= 0.8 then 0
    else if fontScale <= 0.9 then 1
    else if fontScale <= 1.1 then 2
    else if fontScale <= 1.3 then 3
    else if fontScale <= 1.5 then 4
    else 5
  }

  lemma FontBucketMonotone(a: real, b: real)
    requires a <= b
    ensures FontBucket(a) <= FontBucket(b)
  {
  }

  /** `getDynamicFontSize`: the classes of the title and of both values. */
  function FontSizeClass(fontScale: real): string {
    ValueClassOf(FontBucket(fontScale))
  }

  function ValueClassOf(b: nat): string {
    if b == 0 then "text-lg sm:text-lg md:text-xl lg:text-2xl"
    else if b == 1 then "text-xl sm:text-xl md:text-2xl lg:text-3xl"
    else if b == 2 then "text-2xl sm:text-2xl md:text-2xl lg:text-4xl"
    else if b == 3 then "text-3xl sm:text-3xl md:text-4xl lg:text-5xl"
    else if b == 4 then "text-4xl sm:text-4xl md:text-5xl lg:text-6xl"
    else "text-5xl sm:text-5xl md:text-6xl lg:text-7xl"
  }

  /** The large-screen step's size names the bucket. */
  lemma FontClassKey(b: nat)
    requires b <= 5
    ensures var s := ValueClassOf(b);
      |s| > 3 && s[|s| - 3] == "234567"[b]
  {
    var s := ValueClassOf(b);
    if b == 0 { assert s[|s| - 3] == '2'; }
    else if b == 1 { assert s[|s| - 3] == '3'; }
    else if b == 2 { assert s[|s| - 3] == '4'; }
    else if b == 3 { assert s[|s| - 3] == '5'; }
    else if b == 4 { assert s[|s| - 3] == '6'; }
    else { assert s[|s| - 3] == '7'; }
  }

  /** The six buckets give six different classes: two scales share a class
      exactly when they share a bucket. */
  lemma FontSizeClassSeparates(a: real, b: real)
    ensures FontSizeClass(a) == FontSizeClass(b) <==> FontBucket(a) == FontBucket(b)
  {
    FontClassKey(FontBucket(a));
    FontClassKey(FontBucket(b));
  }

  /** `getDynamicLabelFontSize`: the classes of the two label bands. */
  function LabelFontSizeClass(fontScale: real): string {
    LabelClassOf(FontBucket(fontScale))
  }

  function LabelClassOf(b: nat): string {
    if b == 0 then "text-xs sm:text-sm md:text-base lg:text-lg"
    else if b == 1 then "text-sm sm:text-base md:text-lg lg:text-xl"
    else if b == 2 then "text-sm sm:text-base md:text-lg lg:text-xl"
    else if b == 3 then "text-base sm:text-lg md:text-xl lg:text-2xl"
    else if b == 4 then "text-lg sm:text-xl md:text-2xl lg:text-3xl"
    else "text-xl sm:text-2xl md:text-3xl lg:text-4xl"
  }

  /** The large-screen step's size names the label bucket, with the second
      and third buckets sharing one. */
  lemma LabelClassKey(b: nat)
    requires b <= 5
    ensures var s := LabelClassOf(b);
      && |s| > 3
      && s[|s| - 3] == "---234"[b]
      && s[|s| - 2] == "lxxxxx"[b]
  {
    var s := LabelClassOf(b);
    if b == 0 { assert s[|s| - 3] == '-' && s[|s| - 2] == 'l'; }
    else if b <= 2 { assert s[|s| - 3] == '-' && s[|s| - 2] == 'x'; }
    else if b == 3 { assert s[|s| - 3] == '2'; }
    else if b == 4 { assert s[|s| - 3] == '3'; }
    else { assert s[|s| - 3] == '4'; }
  }

  /** The label classes merge the second and third buckets: they are
      constant on (0.8, 1.1], and otherwise tell the buckets apart. */
  lemma LabelFontSizeClassMerges(a: real, b: real)
    ensures LabelFontSizeClass(a) == LabelFontSizeClass(b) <==>
      (FontBucket(a) == FontBucket(b) || (FontBucket(a) in {1, 2} && FontBucket(b) in {1, 2}))
  {
    LabelClassKey(FontBucket(a));
    LabelClassKey(FontBucket(b));
  }

  /** `getPrimaryValueLabel` of the preview. */
  function PreviewPrimaryLabel(pt: PaymentType): string {
    match pt
    case SendMoney => "PHONE NUMBER"
    case Paybill => "PAYBILL NUMBER"
    case TillNumber => "TILL NUMBER"
  }

  /** `getSecondaryValueLabel` of the preview. */
  function PreviewSecondaryLabel(pt: PaymentType, showName: bool): string {
    match pt
    case SendMoney => if showName then "NAME" else ""
    case Paybill => "ACCOUNT NUMBER"
    case TillNumber => ""
  }

  /** The preview's labels are the exported image's labels. */
  lemma LabelsAgree(pt: PaymentType, showName: bool)
    ensures PreviewPrimaryLabel(pt) == PrimaryLabel(pt)
    ensures PreviewSecondaryLabel(pt, showName) == SecondaryLabel(pt, showName)
  {
  }

  /** `gridTemplateRows`, as `fr` weights. */
  function GridRows(pt: PaymentType, showName: bool): (rows: seq<real>)
    ensures forall i :: 0 <= i < |rows| ==> rows[i] > 0.0
  {
    if pt == Paybill then [3.0, 1.2, 3.0, 1.2, 3.0]
    else if pt == SendMoney && showName then [1.0, 1.0, 1.0]
    else [1.0, 1.0]
  }

  function SumReal(xs: seq<real>): real {
    if xs == [] then 0.0 else xs[0] + SumReal(xs[1..])
  }

  /** One child of the grid: the band it fills, whether it carries the 8px
      rule at its top or bottom edge, whether its text is pushed left by
      `mr-[25%]`, whether its text is white, the text and its size class. */
  datatype Block = Block(
    section: Section,
    borderTop: bool,
    borderBottom: bool,
    shifted: bool,
    whiteText: bool,
    text: string,
    fontClass: string)

  /** The whole preview: row weights, grid children in order, and the QR
      strip's payload when it is rendered. */
  datatype Tree = Tree(rows: seq<real>, blocks: seq<Block>, qrStrip: Option<string>)

  /** The preview markup, given the size class of the title and values
      (`big`) and of the labels (`small`). */
  function RenderWith(pt: PaymentType, showName: bool, showQr: bool, title: string, big: string, small: string,
                      dv: DisplayValues): (t: Tree)
    ensures |t.rows| == |t.blocks|
    ensures t.qrStrip.Some? <==> showQr
  {
    var titleBlock := [Block(Section(Title, Color), false, false, showQr, true, title, big)];
    var firstBlack :=
      if pt == Paybill then [Block(Section(Label(Primary), Black), false, false, showQr, true, PreviewPrimaryLabel(pt), small)]
      else [];
    var primary := [Block(Section(Value(Primary), White), pt != Paybill, pt != Paybill && pt == SendMoney && showName,
                          showQr, false, dv.primaryValue, big)];
    var secondBlack :=
      if pt == Paybill then [Block(Section(Label(Secondary), Black), false, false, showQr, true, PreviewSecondaryLabel(pt, showName), small)]
      else [];
    var secondary :=
      if (pt == SendMoney && showName) || pt == Paybill then [Block(Section(Value(Secondary), Color), false, false, showQr, true, dv.secondaryValue, big)]
      else [];
    var blocks := titleBlock + firstBlack + primary + secondBlack + secondary;
    assert pt == Paybill ==> |blocks| == 5;
    Tree(GridRows(pt, showName), blocks, if showQr then Some(dv.qrData) else None)
  }

  /** `PosterPreview`: the size classes follow the font scale. */
  function Render(pt: PaymentType, showName: bool, showQr: bool, title: string, fontScale: real, dv: DisplayValues): (t: Tree)
    ensures forall i :: 0 <= i < |t.blocks| ==>
      t.blocks[i].fontClass == if t.blocks[i].section.kind.Label? then LabelFontSizeClass(fontScale) else FontSizeClass(fontScale)
  {
    ClassesFollowKind(pt, showName, showQr, title, FontSizeClass(fontScale), LabelFontSizeClass(fontScale), dv);
    RenderWith(pt, showName, showQr, title, FontSizeClass(fontScale), LabelFontSizeClass(fontScale), dv)
  }

  /** The preview follows the layout: one grid child per band, in order;
      the 8px rules sit exactly where the layout puts heavy rules; every text
      is shifted exactly when the QR strip is carved out; text is white
      exactly off the white band; each band shows its own text. */
  lemma PreviewFollowsLayout(pt: PaymentType, showName: bool, showQr: bool, title: string, big: string, small: string,
                             dv: DisplayValues)
    ensures var t := RenderWith(pt, showName, showQr, title, big, small, dv);
      var a := Layout(pt, showName, showQr);
      && |t.blocks| == |a.sections|
      && (forall i :: 0 <= i < |t.blocks| ==> t.blocks[i].section == a.sections[i])
      && (forall i :: 0 <= i < |t.blocks| ==>
            t.blocks[i].borderTop == (a.sections[i].kind == Value(Primary) && a.ruleAbovePrimary))
      && (forall i :: 0 <= i < |t.blocks| ==>
            t.blocks[i].borderBottom == (a.sections[i].kind == Value(Primary) && a.ruleBelowPrimary))
      && (forall i :: 0 <= i < |t.blocks| ==> t.blocks[i].shifted == a.qrStrip)
      && (forall i :: 0 <= i < |t.blocks| ==> t.blocks[i].whiteText == WhiteText(a.sections[i]))
      && (forall i :: 0 <= i < |t.blocks| ==> t.blocks[i].text == SectionText(a.sections[i].kind, pt, showName, title, dv))
  {
    var t := RenderWith(pt, showName, showQr, title, big, small, dv);
    var a := Layout(pt, showName, showQr);
    LayoutTable(pt, showName, showQr);
    LabelsAgree(pt, showName);
    RenderShapes(pt, showName, showQr, title, big, small, dv);
    var s := a.sections;
    assert |t.blocks| == |s|;
    forall i | 0 <= i < |t.blocks|
      ensures t.blocks[i].section == a.sections[i]
      ensures t.blocks[i].borderTop == (a.sections[i].kind == Value(Primary) && a.ruleAbovePrimary)
      ensures t.blocks[i].borderBottom == (a.sections[i].kind == Value(Primary) && a.ruleBelowPrimary)
      ensures t.blocks[i].shifted == a.qrStrip
      ensures t.blocks[i].whiteText == WhiteText(a.sections[i])
      ensures t.blocks[i].text == SectionText(a.sections[i].kind, pt, showName, title, dv)
    {
      if pt == Paybill {
        assert i in {0, 1, 2, 3, 4};
      } else if pt == SendMoney && showName {
        assert i in {0, 1, 2};
      } else {
        assert i in {0, 1};
      }
    }
  }

  /** Labels take the small class, every other band the big one. */
  lemma ClassesFollowKind(pt: PaymentType, showName: bool, showQr: bool, title: string, big: string, small: string,
                          dv: DisplayValues)
    ensures var t := RenderWith(pt, showName, showQr, title, big, small, dv);
      forall i :: 0 <= i < |t.blocks| ==> t.blocks[i].fontClass == if t.blocks[i].section.kind.Label? then small else big
  {
    var t := RenderWith(pt, showName, showQr, title, big, small, dv);
    RenderShapes(pt, showName, showQr, title, big, small, dv);
    forall i | 0 <= i < |t.blocks|
      ensures t.blocks[i].fontClass == if t.blocks[i].section.kind.Label? then small else big
    {
      if pt == Paybill {
        assert i in {0, 1, 2, 3, 4};
      } else if pt == SendMoney && showName {
        assert i in {0, 1, 2};
      } else {
        assert i in {0, 1};
      }
    }
  }

  /** The grid children of each of the three shapes. */
  lemma RenderShapes(pt: PaymentType, showName: bool, showQr: bool, title: string, big: string, small: string,
                     dv: DisplayValues)
    ensures var b := RenderWith(pt, showName, showQr, title, big, small, dv).blocks;
      && (pt == Paybill ==> b == [
            Block(Section(Title, Color), false, false, showQr, true, title, big),
            Block(Section(Label(Primary), Black), false, false, showQr, true, PrimaryLabel(pt), small),
            Block(Section(Value(Primary), White), false, false, showQr, false, dv.primaryValue, big),
            Block(Section(Label(Secondary), Black), false, false, showQr, true, SecondaryLabel(pt, showName), small),
            Block(Section(Value(Secondary), Color), false, false, showQr, true, dv.secondaryValue, big)])
      && (pt == SendMoney && showName ==> b == [
            Block(Section(Title, Color), false, false, showQr, true, title, big),
            Block(Section(Value(Primary), White), true, true, showQr, false, dv.primaryValue, big),
            Block(Section(Value(Secondary), Color), false, false, showQr, true, dv.secondaryValue, big)])
      && (pt != Paybill && !(pt == SendMoney && showName) ==> b == [
            Block(Section(Title, Color), false, false, showQr, true, title, big),
            Block(Section(Value(Primary), White), true, false, showQr, false, dv.primaryValue, big)])
  {
    LabelsAgree(pt, showName);
  }

  /** Away from Paybill the grid rows split the height exactly as the
      exported image's bands do. */
  lemma RowsMatchRasterAwayFromPaybill(pt: PaymentType, showName: bool, width: real, height: real)
    requires pt != Paybill
    ensures var rows := GridRows(pt, showName);
      var bands := Raster.FillPass(pt, showName, width, height);
      && |rows| == |bands|
      && SumReal(rows) > 0.0
      && forall i :: 0 <= i < |rows| ==> rows[i] / SumReal(rows) * height == bands[i].rect.h
  {
    LayoutTable(pt, showName, false);
    var rows := GridRows(pt, showName);
    assert SumReal(rows[|rows| - 1..]) == 1.0;
    if pt == SendMoney && showName {
      assert SumReal(rows[1..]) == 2.0;
    }
  }

  /** For Paybill the two renderers disagree: the preview gives a value band
      2.5 times a label band (3fr : 1.2fr), the exported image 2.25 times
      (0.27 : 0.12). */
  lemma PaybillProportionsDiffer(showName: bool, width: real, height: real)
    requires height > 0.0
    ensures var rows := GridRows(Paybill, showName);
      var bands := Raster.FillPass(Paybill, showName, width, height);
      && rows[0] / rows[1] == 2.5
      && bands[0].rect.h / bands[1].rect.h == 2.25
  {
    LayoutTable(Paybill, showName, false);
  }

  /** The two renderers disagree on the QR code without a primary value: the
      preview still carves out the strip and renders the code, the exported
      image draws no QR block. */
  lemma QrWithoutPrimaryValue(p: Raster.PosterParams, title: string)
    requires p.showQrCode && p.displayValues.primaryValue == []
    ensures Render(p.paymentType, p.showName, p.showQrCode, title, p.fontScale, p.displayValues).qrStrip
      == Some(p.displayValues.qrData)
    ensures Raster.QrCommands(p.showQrCode, p.displayValues, p.template.size.width as real,
                              p.template.size.height as real, 0) == []
  {
  }

  /** The two renderers disagree on the title: the preview shows it as typed,
      empty included, while the exported image falls back to "SEND MONEY" and
      upper-cases a given title, so a title with a lower-case letter is drawn
      differently. */
  lemma TitleAsTyped(p: Raster.PosterParams)
    ensures var t := Render(p.paymentType, p.showName, p.showQrCode, p.title, p.fontScale, p.displayValues);
      var texts := Raster.PosterPasses(p).texts;
      && t.blocks != [] && t.blocks[0].section.kind == Title && t.blocks[0].text == p.title
      && texts != [] && texts[0].FillText?
      && (p.title == [] ==> texts[0].text == Raster.DefaultTitle)
      && ((exists i :: 0 <= i < |p.title| && 'a' <= p.title[i] <= 'z') ==> texts[0].text != p.title)
  {
    Raster.PosterTitle(p);
    RenderShapes(p.paymentType, p.showName, p.showQrCode, p.title,
                 FontSizeClass(p.fontScale), LabelFontSizeClass(p.fontScale), p.displayValues);
  }
}

=== FILE: raster.dfy ===
/** The raster exporter of `src/utils/poster-download.ts`: the numbers
    `downloadPoster` hands to the canvas, as a list of abstract draw commands,
    and the name of the downloaded file. Geometry is exact rational arithmetic
    on the template's width and height. */
module Raster {
  import opened Types
  import opened Text
  import opened Policy
  import Helpers

  /** The border every band is inset by: 8px at any resolution. */
  const BorderSize: real := 8.0
  /** The heavy rules around the primary value: 15px at any resolution. */
  const RuleThickness: real := 15.0
  /** The QR container's corner radius before clamping. */
  const CornerRadius: real := 15.0

  const BorderColor: string := "#1a2335"
  const WhiteColor: string := "#ffffff"
  const BlackColor: string := "#000000"
  const DefaultColor: string := "#16a34a"
  const DefaultTitle: string := "SEND MONEY"
  const CardColor: string := "#FFFFFF"
  const CardStrokeColor: string := "#E5E7EB"
  const ScanCaption: string := "SCAN WITH M-PESA"

  datatype Rect = Rect(x: real, y: real, w: real, h: real)

  function Bottom(r: Rect): real {
    r.y + r.h
  }

  function MidY(r: Rect): real {
    r.y + r.h / 2.0
  }

  /** `mainSectionHeight`: 0.27 of the height for Paybill, otherwise a third
      with a secondary band and a half without. */
  function MainHeight(pt: PaymentType, showName: bool, height: real): (m: real)
    ensures height > 0.0 ==> m > 0.0
  {
    if HasBlackSections(pt) then height * 0.27
    else if HasSecondarySection(pt, showName) then height / 3.0
    else height / 2.0
  }

  /** `blackSectionHeight`: 0.12 of the height for Paybill, else nothing. */
  function BlackHeight(pt: PaymentType, height: real): (b: real)
    ensures !HasBlackSections(pt) ==> b == 0.0
    ensures height > 0.0 && HasBlackSections(pt) ==> b > 0.0
  {
    if HasBlackSections(pt) then height * 0.12 else 0.0
  }

  /** One rectangle of the fill pass, tagged with the section it paints. */
  datatype Band = Band(section: Section, rect: Rect)

  /** The fill pass: a cursor starts at the border and each band is filled at
      the cursor and advances it by its height. */
  function FillPass(pt: PaymentType, showName: bool, width: real, height: real): (bands: seq<Band>)
    ensures |bands| == |Layout(pt, showName, false).sections|
    ensures forall i :: 0 <= i < |bands| ==> bands[i].section == Layout(pt, showName, false).sections[i]
    ensures bands[0].rect.y == BorderSize
    ensures forall i :: 0 < i < |bands| ==> bands[i].rect.y == Bottom(bands[i - 1].rect)
    ensures forall i :: 0 <= i < |bands| ==>
      bands[i].rect.x == BorderSize && bands[i].rect.w == width - 2.0 * BorderSize
    ensures forall i :: 0 <= i < |bands| ==>
      bands[i].rect.h == if bands[i].section.background == Black then BlackHeight(pt, height) else MainHeight(pt, showName, height)
  {
    var main := MainHeight(pt, showName, height);
    var black := BlackHeight(pt, height);
    var inner := width - 2.0 * BorderSize;
    var y0 := BorderSize;
    var y1 := y0 + main;
    LayoutTable(pt, showName, false);
    if HasBlackSections(pt) then
      var y2 := y1 + black;
      var y3 := y2 + main;
      var y4 := y3 + black;
      [ Band(Section(Title, Color), Rect(BorderSize, y0, inner, main)),
        Band(Section(Label(Primary), Black), Rect(BorderSize, y1, inner, black)),
        Band(Section(Value(Primary), White), Rect(BorderSize, y2, inner, main)),
        Band(Section(Label(Secondary), Black), Rect(BorderSize, y3, inner, black)),
        Band(Section(Value(Secondary), Color), Rect(BorderSize, y4, inner, main)) ]
    else if HasSecondarySection(pt, showName) then
      var y2 := y1 + main;
      [ Band(Section(Title, Color), Rect(BorderSize, y0, inner, main)),
        Band(Section(Value(Primary), White), Rect(BorderSize, y1, inner, main)),
        Band(Section(Value(Secondary), Color), Rect(BorderSize, y2, inner, main)) ]
    else
      [ Band(Section(Title, Color), Rect(BorderSize, y0, inner, main)),
        Band(Section(Value(Primary), White), Rect(BorderSize, y1, inner, main)) ]
  }

  /** Where the cursor of the fill pass ends: 8 + height without black bands,
      8 + 1.05 height for Paybill, whose bands sum to 3 x 0.27 + 2 x 0.12 = 1.05
      of the height. Either way the last band runs past the canvas bottom. */
  lemma FillPassEnd(pt: PaymentType, showName: bool, width: real, height: real)
    requires height > 0.0
    ensures var bands := FillPass(pt, showName, width, height);
      && Bottom(bands[|bands| - 1].rect) == BorderSize + (if pt == Paybill then 1.05 * height else height)
      && Bottom(bands[|bands| - 1].rect) > height
  {
    var bands := FillPass(pt, showName, width, height);
    LayoutTable(pt, showName, false);
    if pt == Paybill {
      assert Bottom(bands[4].rect) == BorderSize + 3.0 * (height * 0.27) + 2.0 * (height * 0.12);
    } else if HasSecondarySection(pt, showName) {
      assert Bottom(bands[2].rect) == BorderSize + 3.0 * (height / 3.0);
    } else {
      assert Bottom(bands[1].rect) == BorderSize + 2.0 * (height / 2.0);
    }
  }

  /** The rule pass, for layouts without black bands only: a 15px rule
      centred 8 + main down, and a second one a band lower when a secondary
      band follows. */
  function RulePass(pt: PaymentType, showName: bool, width: real, height: real): (rules: seq<Rect>)
    ensures |rules| == if HasBlackSections(pt) then 0 else if HasSecondarySection(pt, showName) then 2 else 1
    ensures forall i :: 0 <= i < |rules| ==>
      rules[i].x == BorderSize && rules[i].w == width - 2.0 * BorderSize && rules[i].h == RuleThickness
  {
    if !HasBlackSections(pt) then
      var main := MainHeight(pt, showName, height);
      var y := BorderSize + main;
      [Rect(BorderSize, y - RuleThickness / 2.0, width - 2.0 * BorderSize, RuleThickness)]
      + (if HasSecondarySection(pt, showName)
         then [Rect(BorderSize, (y + main) - RuleThickness / 2.0, width - 2.0 * BorderSize, RuleThickness)]
         else [])
    else []
  }

  /** Each rule is centred on a band boundary of the fill pass: the first on
      the top edge of the primary value, the second on its bottom edge; and
      the rules are the ones the layout asks for. */
  lemma RulesOnBoundaries(pt: PaymentType, showName: bool, width: real, height: real)
    ensures var rules := RulePass(pt, showName, width, height);
      var bands := FillPass(pt, showName, width, height);
      var a := Layout(pt, showName, false);
      && (|rules| >= 1 <==> a.ruleAbovePrimary)
      && (|rules| == 2 <==> a.ruleBelowPrimary)
      && (forall i :: 0 <= i < |rules| ==> i + 1 < |bands| && MidY(rules[i]) == bands[i + 1].rect.y)
      && (|rules| >= 1 ==> bands[1].section.kind == Value(Primary))
      && (|rules| == 2 ==> Bottom(bands[1].rect) == bands[2].rect.y)
  {
    LayoutTable(pt, showName, false);
  }

  /** The centres of the second cursor pass; an absent band's centre is 0. */
  datatype Centres = Centres(title: real, firstBlack: real, primary: real, secondBlack: real, secondary: real)

  /** The second cursor pass, which recomputes the cursor to find each band's
      vertical centre. */
  function TextCentres(pt: PaymentType, showName: bool, height: real): Centres {
    var main := MainHeight(pt, showName, height);
    var black := BlackHeight(pt, height);
    var y0 := BorderSize;
    var titleCentre := y0 + main / 2.0;
    var y1 := y0 + main;
    var firstBlack := if HasBlackSections(pt) then y1 + black / 2.0 else 0.0;
    var y2 := if HasBlackSections(pt) then y1 + black else y1;
    var primaryCentre := y2 + main / 2.0;
    var y3 := y2 + main;
    var both := HasSecondarySection(pt, showName) && HasBlackSections(pt);
    var secondBlack := if both then y3 + black / 2.0 else 0.0;
    var y4 := if both then y3 + black else y3;
    var secondaryCentre := if HasSecondarySection(pt, showName) then y4 + main / 2.0 else 0.0;
    Centres(titleCentre, firstBlack, primaryCentre, secondBlack, secondaryCentre)
  }

  /** The centre the second pass gives a kind of section. */
  function CentreOf(c: Centres, k: SectionKind): real {
    match k
    case Title => c.title
    case Label(Primary) => c.firstBlack
    case Value(Primary) => c.primary
    case Label(Secondary) => c.secondBlack
    case Value(Secondary) => c.secondary
  }

  /** The second pass finds exactly the midpoint of every band the fill pass
      painted, and 0 for the bands the layout does not have. */
  lemma CentresAreMidpoints(pt: PaymentType, showName: bool, width: real, height: real)
    ensures var bands := FillPass(pt, showName, width, height);
      var c := TextCentres(pt, showName, height);
      && (forall i :: 0 <= i < |bands| ==> CentreOf(c, bands[i].section.kind) == MidY(bands[i].rect))
      && (!HasBlackSections(pt) ==> c.firstBlack == 0.0 && c.secondBlack == 0.0)
      && (!HasSecondarySection(pt, showName) ==> c.secondary == 0.0)
  {
    LayoutTable(pt, showName, false);
  }

  /** `Math.round`: halves go up. */
  function Round(x: real): (n: int)
    ensures n as real <= x + 0.5 < n as real + 1.0
  {
    (x + 0.5).Floor
  }

  lemma RoundMonotone(x: real, y: real)
    requires x <= y
    ensures Round(x) <= Round(y)
  {
  }

  datatype Fonts = Fonts(title: int, primary: int, secondary: int, labelSize: int)

  /** The font sizes: title and secondary value 0.1, primary value 0.11 of
      the shorter side times the font scale; labels three quarters of the
      title. */
  function FontSizes(width: real, height: real, fontScale: real): Fonts {
    FontsFor(Helpers.MinReal(width, height), fontScale)
  }

  function FontsFor(side: real, fontScale: real): Fonts {
    var title := Scaled(side, 0.1, fontScale);
    Fonts(title, Scaled(side, 0.11, fontScale), Scaled(side, 0.1, fontScale), Round(title as real * 0.75))
  }

  /** `Math.round(side * k * fontScale)`. */
  function Scaled(side: real, k: real, fontScale: real): int {
    Round(side * k * fontScale)
  }

  lemma ScaleMonotone(side: real, k: real, a: real, b: real)
    requires side >= 0.0 && k >= 0.0 && a <= b
    ensures side * k * a <= side * k * b
  {
    assert side * k * b - side * k * a == (side * k) * (b - a);
    assert side * k >= 0.0;
  }

  /** Every font size grows with the font scale. */
  lemma FontSizesMonotone(width: real, height: real, a: real, b: real)
    requires width >= 0.0 && height >= 0.0 && a <= b
    ensures FontSizes(width, height, a).title <= FontSizes(width, height, b).title
    ensures FontSizes(width, height, a).primary <= FontSizes(width, height, b).primary
    ensures FontSizes(width, height, a).secondary <= FontSizes(width, height, b).secondary
    ensures FontSizes(width, height, a).labelSize <= FontSizes(width, height, b).labelSize
  {
    FontsForMonotone(Helpers.MinReal(width, height), a, b);
  }

  lemma FontsForMonotone(side: real, a: real, b: real)
    requires side >= 0.0 && a <= b
    ensures FontsFor(side, a).title <= FontsFor(side, b).title
    ensures FontsFor(side, a).primary <= FontsFor(side, b).primary
    ensures FontsFor(side, a).labelSize <= FontsFor(side, b).labelSize
  {
    ScaledRoundMonotone(side, 0.1, a, b);
    ScaledRoundMonotone(side, 0.11, a, b);
    LabelRoundMonotone(Scaled(side, 0.1, a), Scaled(side, 0.1, b));
  }

  lemma LabelRoundMonotone(a: int, b: int)
    requires a <= b
    ensures Round(a as real * 0.75) <= Round(b as real * 0.75)
  {
    RoundMonotone(a as real * 0.75, b as real * 0.75);
  }

  lemma ScaledRoundMonotone(side: real, k: real, a: real, b: real)
    requires side >= 0.0 && k >= 0.0 && a <= b
    ensures Scaled(side, k, a) <= Scaled(side, k, b)
  {
    ScaleMonotone(side, k, a, b);
    RoundMonotone(side * k * a, side * k * b);
  }

  /** `qrCodeSize`: a quarter of the width is reserved when the QR code is
      shown. */
  function QrCodeSize(showQr: bool, width: real): real {
    if showQr then width * 0.25 else 0.0
  }

  /** The horizontal centre of every text block. */
  function TextX(showQr: bool, width: real): (x: real)
    ensures x == (width - QrCodeSize(showQr, width)) / 2.0
  {
    if showQr then (width - QrCodeSize(showQr, width)) / 2.0 else width / 2.0
  }

  datatype DrawCmd =
    | FillRect(color: string, rect: Rect)
    | FillText(text: string, size: int, x: real, y: real, color: string)
    | FillPath(path: seq<Helpers.PathOp>, color: string)
    | StrokePath(path: seq<Helpers.PathOp>, color: string)
    | DrawSymbol(data: string, rect: Rect)

  /** The paint of a background. */
  function Paint(b: Background, mainColor: string): string {
    match b
    case Color => mainColor
    case White => WhiteColor
    case Black => BlackColor
  }

  function BandFills(bands: seq<Band>, mainColor: string): (cmds: seq<DrawCmd>)
    ensures |cmds| == |bands|
    ensures forall i :: 0 <= i < |bands| ==> cmds[i] == FillRect(Paint(bands[i].section.background, mainColor), bands[i].rect)
  {
    if bands == [] then []
    else [FillRect(Paint(bands[0].section.background, mainColor), bands[0].rect)] + BandFills(bands[1..], mainColor)
  }

  function RuleFills(rules: seq<Rect>): (cmds: seq<DrawCmd>)
    ensures |cmds| == |rules|
    ensures forall i :: 0 <= i < |rules| ==> cmds[i] == FillRect(BorderColor, rules[i])
  {
    if rules == [] then [] else [FillRect(BorderColor, rules[0])] + RuleFills(rules[1..])
  }

  /** The text pass: the title, the primary label for Paybill, the primary
      value, and, when there is a secondary band and a non-empty secondary
      value, the secondary label for Paybill and the secondary value. */
  function TextPass(pt: PaymentType, showName: bool, showQr: bool, titleText: string, fonts: Fonts,
                    dv: DisplayValues, width: real, height: real): (texts: seq<DrawCmd>)
    ensures forall j :: 0 <= j < |texts| ==> texts[j].FillText? && texts[j].x == TextX(showQr, width)
    ensures |texts| == 2 + (if HasBlackSections(pt) then 1 else 0)
      + (if HasSecondarySection(pt, showName) && dv.secondaryValue != [] then (if HasBlackSections(pt) then 2 else 1) else 0)
  {
    var x := TextX(showQr, width);
    var c := TextCentres(pt, showName, height);
    [FillText(titleText, fonts.title, x, c.title, WhiteColor)]
    + (if HasBlackSections(pt) then [FillText(PrimaryLabel(pt), fonts.labelSize, x, c.firstBlack, WhiteColor)] else [])
    + [FillText(dv.primaryValue, fonts.primary, x, c.primary, BlackColor)]
    + (if HasSecondarySection(pt, showName) && dv.secondaryValue != [] then
         (if HasBlackSections(pt) then [FillText(SecondaryLabel(pt, showName), fonts.labelSize, x, c.secondBlack, WhiteColor)] else [])
         + [FillText(dv.secondaryValue, fonts.secondary, x, c.secondary, WhiteColor)]
       else [])
  }

  /** What the text pass writes with: the payment type and name toggle that
      pick the labels, the title and display values, the fonts, and the
      shared horizontal centre. */
  datatype Lettering = Lettering(pt: PaymentType, showName: bool, title: string, fonts: Fonts,
                                 dv: DisplayValues, x: real)

  /** The font a band's text is set in. */
  function FontOf(k: SectionKind, fonts: Fonts): int {
    match k
    case Title => fonts.title
    case Label(_) => fonts.labelSize
    case Value(Primary) => fonts.primary
    case Value(Secondary) => fonts.secondary
  }

  /** Whether the text pass writes on a band of this kind: the secondary
      label and value only when the secondary value is non-empty. */
  predicate Written(k: SectionKind, dv: DisplayValues) {
    (k == Label(Secondary) || k == Value(Secondary)) ==> dv.secondaryValue != []
  }

  /** The text a band carries: its own text in its own font, at the band's
      vertical midpoint, white off the white band and black on it. */
  function TextOn(b: Band, l: Lettering): DrawCmd {
    FillText(SectionText(b.section.kind, l.pt, l.showName, l.title, l.dv), FontOf(b.section.kind, l.fonts),
             l.x, MidY(b.rect), if WhiteText(b.section) then WhiteColor else BlackColor)
  }

  /** The text a band gets from the pass: its text when it is written,
      nothing otherwise. */
  function Lettered(b: Band, l: Lettering): seq<DrawCmd> {
    if Written(b.section.kind, l.dv) then [TextOn(b, l)] else []
  }

  /** The reference text pass: the painted bands top to bottom, one text on
      every band that is written. */
  function BandTexts(bands: seq<Band>, l: Lettering): (texts: seq<DrawCmd>)
    ensures forall j :: 0 <= j < |texts| ==> texts[j].FillText?
  {
    if bands == [] then [] else Lettered(bands[0], l) + BandTexts(bands[1..], l)
  }

  lemma {:induction false} BandTextsAppend(a: seq<Band>, b: seq<Band>, l: Lettering)
    ensures BandTexts(a + b, l) == BandTexts(a, l) + BandTexts(b, l)
    decreases |a|
  {
    if a != [] {
      assert (a + b)[0] == a[0];
      assert (a + b)[1..] == a[1..] + b;
      BandTextsAppend(a[1..], b, l);
    } else {
      assert a + b == b;
    }
  }

  lemma BandTextsOne(b: Band, l: Lettering)
    ensures BandTexts([b], l) == Lettered(b, l)
  {
  }

  lemma BandTextsTwo(b0: Band, b1: Band, l: Lettering)
    ensures BandTexts([b0, b1], l) == Lettered(b0, l) + Lettered(b1, l)
  {
    assert [b0, b1] == [b0] + [b1];
    BandTextsAppend([b0], [b1], l);
    BandTextsOne(b0, l);
    BandTextsOne(b1, l);
  }

  lemma BandTextsThree(b0: Band, b1: Band, b2: Band, l: Lettering)
    ensures BandTexts([b0, b1, b2], l) == Lettered(b0, l) + Lettered(b1, l) + Lettered(b2, l)
  {
    assert [b0, b1, b2] == [b0, b1] + [b2];
    BandTextsAppend([b0, b1], [b2], l);
    BandTextsTwo(b0, b1, l);
    BandTextsOne(b2, l);
  }

  lemma BandTextsFive(b0: Band, b1: Band, b2: Band, b3: Band, b4: Band, l: Lettering)
    ensures BandTexts([b0, b1, b2, b3, b4], l)
      == Lettered(b0, l) + Lettered(b1, l) + Lettered(b2, l) + Lettered(b3, l) + Lettered(b4, l)
  {
    assert [b0, b1, b2, b3, b4] == [b0, b1, b2] + [b3, b4];
    BandTextsAppend([b0, b1, b2], [b3, b4], l);
    BandTextsThree(b0, b1, b2, l);
    BandTextsTwo(b3, b4, l);
  }

  /** Every text of the reference pass is the text of a written band. */
  lemma {:induction false} BandTextsFromBands(bands: seq<Band>, l: Lettering, j: nat) returns (i: nat)
    requires j < |BandTexts(bands, l)|
    ensures i < |bands| && Written(bands[i].section.kind, l.dv) && BandTexts(bands, l)[j] == TextOn(bands[i], l)
    decreases |bands|
  {
    var head := Lettered(bands[0], l);
    var rest := BandTexts(bands[1..], l);
    assert BandTexts(bands, l) == head + rest;
    if j < |head| {
      i := 0;
    } else {
      var k := BandTextsFromBands(bands[1..], l, j - |head|);
      assert bands[1..][k] == bands[k + 1];
      i := k + 1;
    }
  }

  /** Every written band gets its text in the reference pass. */
  lemma {:induction false} BandTextsCoverBands(bands: seq<Band>, l: Lettering, i: nat) returns (j: nat)
    requires i < |bands| && Written(bands[i].section.kind, l.dv)
    ensures j < |BandTexts(bands, l)| && BandTexts(bands, l)[j] == TextOn(bands[i], l)
    decreases |bands|
  {
    var head := Lettered(bands[0], l);
    var rest := BandTexts(bands[1..], l);
    assert BandTexts(bands, l) == head + rest;
    if i == 0 {
      j := 0;
    } else {
      assert bands[1..][i - 1] == bands[i];
      var k := BandTextsCoverBands(bands[1..], l, i - 1);
      j := |head| + k;
    }
  }

  /** The text pass is the reference pass over the painted bands: every
      text lies on a band and is that band's own text, in that band's font,
      at its midpoint, white exactly off the white band; and every band gets
      its text, except the secondary bands when the secondary value is
      empty. */
  lemma TextsOnBands(pt: PaymentType, showName: bool, showQr: bool, titleText: string, fonts: Fonts,
                     dv: DisplayValues, width: real, height: real)
    ensures var texts := TextPass(pt, showName, showQr, titleText, fonts, dv, width, height);
      var bands := FillPass(pt, showName, width, height);
      && texts == BandTexts(bands, Lettering(pt, showName, titleText, fonts, dv, TextX(showQr, width)))
      && (forall j :: 0 <= j < |texts| ==>
            exists i :: 0 <= i < |bands| && texts[j].y == MidY(bands[i].rect)
              && texts[j].text == SectionText(bands[i].section.kind, pt, showName, titleText, dv)
              && texts[j].size == FontOf(bands[i].section.kind, fonts)
              && (texts[j].color == WhiteColor <==> WhiteText(bands[i].section)))
      && (forall i :: 0 <= i < |bands| && Written(bands[i].section.kind, dv) ==>
            exists j :: 0 <= j < |texts| && texts[j].y == MidY(bands[i].rect)
              && texts[j].text == SectionText(bands[i].section.kind, pt, showName, titleText, dv))
  {
    var l := Lettering(pt, showName, titleText, fonts, dv, TextX(showQr, width));
    TextPassIsReference(pt, showName, showQr, titleText, fonts, dv, width, height);
    BandTextsMatchBands(FillPass(pt, showName, width, height), l,
      TextPass(pt, showName, showQr, titleText, fonts, dv, width, height));
  }

  /** The reference pass, read both ways: each text is a written band's own
      text, and each written band has its text. */
  lemma BandTextsMatchBands(bands: seq<Band>, l: Lettering, texts: seq<DrawCmd>)
    requires texts == BandTexts(bands, l)
    ensures forall j :: 0 <= j < |texts| ==>
      exists i :: 0 <= i < |bands| && texts[j].y == MidY(bands[i].rect)
        && texts[j].text == SectionText(bands[i].section.kind, l.pt, l.showName, l.title, l.dv)
        && texts[j].size == FontOf(bands[i].section.kind, l.fonts)
        && (texts[j].color == WhiteColor <==> WhiteText(bands[i].section))
    ensures forall i :: 0 <= i < |bands| && Written(bands[i].section.kind, l.dv) ==>
      exists j :: 0 <= j < |texts| && texts[j].y == MidY(bands[i].rect)
        && texts[j].text == SectionText(bands[i].section.kind, l.pt, l.showName, l.title, l.dv)
  {
    forall j | 0 <= j < |texts|
      ensures exists i :: 0 <= i < |bands| && texts[j].y == MidY(bands[i].rect)
                && texts[j].text == SectionText(bands[i].section.kind, l.pt, l.showName, l.title, l.dv)
                && texts[j].size == FontOf(bands[i].section.kind, l.fonts)
                && (texts[j].color == WhiteColor <==> WhiteText(bands[i].section))
    {
      var i := BandTextsFromBands(bands, l, j);
      assert texts[j] == TextOn(bands[i], l);
    }
    forall i | 0 <= i < |bands| && Written(bands[i].section.kind, l.dv)
      ensures exists j :: 0 <= j < |texts| && texts[j].y == MidY(bands[i].rect)
                && texts[j].text == SectionText(bands[i].section.kind, l.pt, l.showName, l.title, l.dv)
    {
      var j := BandTextsCoverBands(bands, l, i);
      assert texts[j] == TextOn(bands[i], l);
    }
  }

  /** The text pass written band by band. */
  lemma TextPassIsReference(pt: PaymentType, showName: bool, showQr: bool, titleText: string, fonts: Fonts,
                            dv: DisplayValues, width: real, height: real)
    ensures TextPass(pt, showName, showQr, titleText, fonts, dv, width, height)
      == BandTexts(FillPass(pt, showName, width, height), Lettering(pt, showName, titleText, fonts, dv, TextX(showQr, width)))
  {
    if pt == Paybill {
      PaybillTextsAreReference(showName, showQr, titleText, fonts, dv, width, height);
    } else if HasSecondarySection(pt, showName) {
      NameTextsAreReference(showQr, titleText, fonts, dv, width, height);
    } else {
      PlainTextsAreReference(pt, showName, showQr, titleText, fonts, dv, width, height);
    }
  }

  lemma PaybillTextsAreReference(showName: bool, showQr: bool, titleText: string, fonts: Fonts,
                                 dv: DisplayValues, width: real, height: real)
    ensures TextPass(Paybill, showName, showQr, titleText, fonts, dv, width, height)
      == BandTexts(FillPass(Paybill, showName, width, height), Lettering(Paybill, showName, titleText, fonts, dv, TextX(showQr, width)))
  {
    var pt := Paybill;
    var bands := FillPass(pt, showName, width, height);
    var l := Lettering(pt, showName, titleText, fonts, dv, TextX(showQr, width));
    var c := TextCentres(pt, showName, height);
    var x := l.x;
    CentresAreMidpoints(pt, showName, width, height);
    LayoutTable(pt, showName, false);
    assert bands == [bands[0], bands[1], bands[2], bands[3], bands[4]];
    BandTextsFive(bands[0], bands[1], bands[2], bands[3], bands[4], l);
    assert Lettered(bands[0], l) == [FillText(titleText, fonts.title, x, c.title, WhiteColor)];
    assert Lettered(bands[1], l) == [FillText(PrimaryLabel(pt), fonts.labelSize, x, c.firstBlack, WhiteColor)];
    assert Lettered(bands[2], l) == [FillText(dv.primaryValue, fonts.primary, x, c.primary, BlackColor)];
    if dv.secondaryValue != [] {
      assert Lettered(bands[3], l) == [FillText(SecondaryLabel(pt, showName), fonts.labelSize, x, c.secondBlack, WhiteColor)];
      assert Lettered(bands[4], l) == [FillText(dv.secondaryValue, fonts.secondary, x, c.secondary, WhiteColor)];
    } else {
      assert Lettered(bands[3], l) == [] && Lettered(bands[4], l) == [];
    }
  }

  lemma NameTextsAreReference(showQr: bool, titleText: string, fonts: Fonts,
                              dv: DisplayValues, width: real, height: real)
    ensures TextPass(SendMoney, true, showQr, titleText, fonts, dv, width, height)
      == BandTexts(FillPass(SendMoney, true, width, height), Lettering(SendMoney, true, titleText, fonts, dv, TextX(showQr, width)))
  {
    var pt, showName := SendMoney, true;
    var bands := FillPass(pt, showName, width, height);
    var l := Lettering(pt, showName, titleText, fonts, dv, TextX(showQr, width));
    var c := TextCentres(pt, showName, height);
    var x := l.x;
    CentresAreMidpoints(pt, showName, width, height);
    LayoutTable(pt, showName, false);
    assert bands == [bands[0], bands[1], bands[2]];
    BandTextsThree(bands[0], bands[1], bands[2], l);
    assert Lettered(bands[0], l) == [FillText(titleText, fonts.title, x, c.title, WhiteColor)];
    assert Lettered(bands[1], l) == [FillText(dv.primaryValue, fonts.primary, x, c.primary, BlackColor)];
    if dv.secondaryValue != [] {
      assert Lettered(bands[2], l) == [FillText(dv.secondaryValue, fonts.secondary, x, c.secondary, WhiteColor)];
    } else {
      assert Lettered(bands[2], l) == [];
    }
  }

  lemma PlainTextsAreReference(pt: PaymentType, showName: bool, showQr: bool, titleText: string, fonts: Fonts,
                               dv: DisplayValues, width: real, height: real)
    requires pt != Paybill && !HasSecondarySection(pt, showName)
    ensures TextPass(pt, showName, showQr, titleText, fonts, dv, width, height)
      == BandTexts(FillPass(pt, showName, width, height), Lettering(pt, showName, titleText, fonts, dv, TextX(showQr, width)))
  {
    var bands := FillPass(pt, showName, width, height);
    var l := Lettering(pt, showName, titleText, fonts, dv, TextX(showQr, width));
    var c := TextCentres(pt, showName, height);
    var x := l.x;
    CentresAreMidpoints(pt, showName, width, height);
    LayoutTable(pt, showName, false);
    assert bands == [bands[0], bands[1]];
    BandTextsTwo(bands[0], bands[1], l);
    assert Lettered(bands[0], l) == [FillText(titleText, fonts.title, x, c.title, WhiteColor)];
    assert Lettered(bands[1], l) == [FillText(dv.primaryValue, fonts.primary, x, c.primary, BlackColor)];
  }

  /** The band the `j`-th text is drawn on, and the text is that band's. */
  lemma BandOfText(pt: PaymentType, showName: bool, showQr: bool, titleText: string, fonts: Fonts,
                   dv: DisplayValues, width: real, height: real, j: nat) returns (i: nat)
    requires j < |TextPass(pt, showName, showQr, titleText, fonts, dv, width, height)|
    ensures var texts := TextPass(pt, showName, showQr, titleText, fonts, dv, width, height);
      var bands := FillPass(pt, showName, width, height);
      && i < |bands| && texts[j].y == MidY(bands[i].rect)
      && (texts[j].color == WhiteColor <==> WhiteText(bands[i].section))
      && texts[j].text == SectionText(bands[i].section.kind, pt, showName, titleText, dv)
      && texts[j].size == FontOf(bands[i].section.kind, fonts)
  {
    var bands := FillPass(pt, showName, width, height);
    var l := Lettering(pt, showName, titleText, fonts, dv, TextX(showQr, width));
    TextPassIsReference(pt, showName, showQr, titleText, fonts, dv, width, height);
    i := BandTextsFromBands(bands, l, j);
  }

  /** The QR card and symbol of `downloadPoster`. */
  datatype QrBox = QrBox(container: Rect, radius: real, symbol: Rect, captionX: real, captionY: real, captionSize: int)

  /** The QR geometry: a symbol of side 0.8 min(height - 16, qrCodeSize) in a
      card 1.4 times as tall and `width / 3 - 40` wide, flush with the right
      edge and centred vertically, with the symbol centred in the card. */
  function QrPlacement(width: real, height: real, titleFont: int): (b: QrBox)
    ensures b.container.x + b.container.w == width
    ensures MidY(b.container) == height / 2.0
    ensures b.symbol.w == b.symbol.h
    ensures b.symbol.x + b.symbol.w / 2.0 == b.container.x + b.container.w / 2.0
    ensures MidY(b.symbol) == MidY(b.container)
    ensures b.radius == Helpers.ClampRadius(b.container.w, b.container.h, CornerRadius)
  {
    var qrSize := Helpers.MinReal(height - 2.0 * BorderSize, QrCodeSize(true, width)) * 0.8;
    var containerWidth := width / 3.0 - 40.0;
    var containerHeight := qrSize * 1.4;
    var rightPadding := 0.0;
    var containerX := width - containerWidth - rightPadding;
    var containerY := height / 2.0 - containerHeight / 2.0;
    var qrX := containerX + (containerWidth - qrSize) / 2.0;
    var qrY := containerY + (containerHeight - qrSize) / 2.0;
    QrBox(Rect(containerX, containerY, containerWidth, containerHeight),
          Helpers.ClampRadius(containerWidth, containerHeight, CornerRadius),
          Rect(qrX, qrY, qrSize, qrSize),
          containerX + containerWidth / 2.0, containerY + 20.0, Round(titleFont as real * 0.25))
  }

  /** On a canvas at least 16px tall the symbol fits inside its card
      vertically, because the card is 1.4 times the symbol's height; it fits
      horizontally exactly when the card is at least as wide as the symbol. */
  lemma QrSymbolFits(width: real, height: real, titleFont: int)
    requires height >= 2.0 * BorderSize && width >= 0.0
    ensures var b := QrPlacement(width, height, titleFont);
      && b.container.y <= b.symbol.y && Bottom(b.symbol) <= Bottom(b.container)
      && (b.container.x <= b.symbol.x <==> b.symbol.w <= b.container.w)
  {
  }

  /** The QR block runs only when the QR code is shown and there is a
      primary value: the card filled with a shadow, then stroked, the symbol
      drawn in it, and the caption above the symbol. */
  function QrCommands(showQr: bool, dv: DisplayValues, width: real, height: real, titleFont: int): (cmds: seq<DrawCmd>)
    ensures cmds != [] <==> showQr && dv.primaryValue != []
    ensures cmds != [] ==> |cmds| == 4 && cmds[2] == DrawSymbol(dv.qrData, QrPlacement(width, height, titleFont).symbol)
  {
    if showQr && dv.primaryValue != [] then
      var b := QrPlacement(width, height, titleFont);
      var path := Helpers.RoundRectLeft(b.container.x, b.container.y, b.container.w, b.container.h, CornerRadius);
      [ FillPath(path, CardColor),
        StrokePath(path, CardStrokeColor),
        DrawSymbol(dv.qrData, b.symbol),
        FillText(ScanCaption, b.captionSize, b.captionX, b.captionY, BlackColor) ]
    else []
  }

  /** The download name: `send-ke-<type in lower case>-<primary value without
      whitespace>-<slug>.png`. */
  function Filename(pt: PaymentType, primaryValue: string, slug: string): (name: string)
    ensures |name| >= 12
    ensures name[..8] == "send-ke-"
    ensures name[|name| - 4..] == ".png"
  {
    var filenameValue := StripSpaces(primaryValue);
    var front := "send-ke-" + (TypeSegment(pt) + "-" + filenameValue + "-" + slug);
    front + ".png"
  }

  /** The type segment of the file name. */
  function TypeSegment(pt: PaymentType): (s: string)
    ensures '-' !in s && NoSpace(s)
  {
    match pt
    case SendMoney => "send_money"
    case Paybill => "paybill"
    case TillNumber => "till_number"
  }

  /** The type segment is the union member in lower case. */
  lemma TypeSegmentIsLower(pt: PaymentType)
    ensures TypeSegment(pt) == ToLower(PaymentTypeName(pt))
  {
    ToLowerPointwise(PaymentTypeName(pt), TypeSegment(pt));
  }

  /** The file name carries no whitespace when the slug carries none. */
  lemma FilenameNoSpace(pt: PaymentType, primaryValue: string, slug: string)
    requires NoSpace(slug)
    ensures NoSpace(Filename(pt, primaryValue, slug))
  {
    var v := StripSpaces(primaryValue);
    var t := TypeSegment(pt);
    NoSpaceConcat(t, "-");
    NoSpaceConcat(t + "-", v);
    NoSpaceConcat(t + "-" + v, "-");
    NoSpaceConcat(t + "-" + v + "-", slug);
    NoSpaceConcat("send-ke-", t + "-" + v + "-" + slug);
    NoSpaceConcat("send-ke-" + (t + "-" + v + "-" + slug), ".png");
  }

  lemma CancelAffixes(pre: string, a: string, b: string, post: string)
    requires pre + a + post == pre + b + post
    ensures a == b
  {
    assert a == (pre + a + post)[|pre|..|pre| + |a|];
    assert b == (pre + b + post)[|pre|..|pre| + |b|];
  }

  lemma DashAfter(t: string, s: string)
    ensures (t + "-" + s)[|t|] == '-'
  {
  }

  lemma NoDashBefore(t: string, s: string, i: nat)
    requires '-' !in t && i < |t|
    ensures (t + "-" + s)[i] != '-'
  {
    assert (t + "-" + s)[i] == t[i];
  }

  /** Two strings that each have a dash-free head followed by a dash split
      at the same place. */
  lemma SplitAtDash(t1: string, s1: string, t2: string, s2: string)
    requires '-' !in t1 && '-' !in t2
    requires t1 + "-" + s1 == t2 + "-" + s2
    ensures t1 == t2 && s1 == s2
  {
    var k := t1 + "-" + s1;
    if |t1| < |t2| {
      NoDashBefore(t2, s2, |t1|);
      DashAfter(t1, s1);
      assert false;
    } else if |t2| < |t1| {
      NoDashBefore(t1, s1, |t2|);
      DashAfter(t2, s2);
      assert false;
    }
    assert t1 == k[..|t1|] == t2;
    assert s1 == k[|t1| + 1..] == s2;
  }

  /** Under one slug, the file name tells the payment type and the primary
      value, up to whitespace, apart: two posters share a name only when they
      share both. */
  lemma FilenameInjective(pt1: PaymentType, v1: string, pt2: PaymentType, v2: string, slug: string)
    requires Filename(pt1, v1, slug) == Filename(pt2, v2, slug)
    ensures pt1 == pt2 && StripSpaces(v1) == StripSpaces(v2)
  {
    var s1 := StripSpaces(v1);
    var s2 := StripSpaces(v2);
    var t1 := TypeSegment(pt1);
    var t2 := TypeSegment(pt2);
    CancelAffixes("send-ke-", t1 + "-" + s1 + "-" + slug, t2 + "-" + s2 + "-" + slug, ".png");
    assert t1 + "-" + s1 + "-" + slug == [] + (t1 + "-" + s1) + ("-" + slug);
    assert t2 + "-" + s2 + "-" + slug == [] + (t2 + "-" + s2) + ("-" + slug);
    CancelAffixes([], t1 + "-" + s1, t2 + "-" + s2, "-" + slug);
    SplitAtDash(t1, s1, t2, s2);
  }

  /** The inputs of `downloadPoster`. */
  datatype PosterParams = PosterParams(
    template: Template,
    selectedColor: string,
    paymentType: PaymentType,
    showName: bool,
    showQrCode: bool,
    title: string,
    fontScale: real,
    displayValues: DisplayValues)

  datatype Export = Export(commands: seq<DrawCmd>, filename: string)

  /** The canvas fill that makes the border: the whole canvas in the border colour. */
  function Backdrop(width: real, height: real): DrawCmd {
    FillRect(BorderColor, Rect(0.0, 0.0, width, height))
  }

  /** The passes of a drawing, in the order they reach the canvas. */
  datatype Passes = Passes(backdrop: DrawCmd, fills: seq<DrawCmd>, rules: seq<DrawCmd>, texts: seq<DrawCmd>, qr: seq<DrawCmd>)

  function Flatten(ps: Passes): (cmds: seq<DrawCmd>)
    ensures |cmds| == 1 + |ps.fills| + |ps.rules| + |ps.texts| + |ps.qr|
    ensures cmds[0] == ps.backdrop
    ensures forall i :: 0 <= i < |ps.fills| ==> cmds[1 + i] == ps.fills[i]
    ensures forall i :: 0 <= i < |ps.rules| ==> cmds[1 + |ps.fills| + i] == ps.rules[i]
    ensures forall i :: 0 <= i < |ps.texts| ==> cmds[1 + |ps.fills| + |ps.rules| + i] == ps.texts[i]
    ensures forall i :: 0 <= i < |ps.qr| ==> cmds[1 + |ps.fills| + |ps.rules| + |ps.texts| + i] == ps.qr[i]
  {
    [ps.backdrop] + ps.fills + ps.rules + ps.texts + ps.qr
  }

  /** Upper-casing the fallback title changes nothing. */
  lemma DefaultTitleIsUpper(t: string)
    requires t == DefaultTitle
    ensures ToUpper(t) == t
  {
    ToUpperKeepsUpper(t);
  }

  /** `selectedColor || "#16a34a"`. */
  function MainColor(p: PosterParams): (c: string)
    ensures c != []
    ensures p.selectedColor != [] ==> c == p.selectedColor
  {
    if p.selectedColor == [] then DefaultColor else p.selectedColor
  }

  /** The passes of `downloadPoster`: the colour defaults to green and the
      title to "SEND MONEY", upper-cased. The fallback title is already in
      upper case (`DefaultTitleIsUpper`), so only a given title is
      upper-cased here. */
  function PosterPasses(p: PosterParams): Passes {
    var width := p.template.size.width as real;
    var height := p.template.size.height as real;
    var mainColor := MainColor(p);
    var fonts := FontSizes(width, height, p.fontScale);
    var titleText := if p.title == [] then DefaultTitle else ToUpper(p.title);
    Passes(
      Backdrop(width, height),
      BandFills(FillPass(p.paymentType, p.showName, width, height), mainColor),
      RuleFills(RulePass(p.paymentType, p.showName, width, height)),
      TextPass(p.paymentType, p.showName, p.showQrCode, titleText, fonts, p.displayValues, width, height),
      QrCommands(p.showQrCode, p.displayValues, width, height, fonts.title))
  }

  /** `downloadPoster`: nothing happens without the preview element or a 2D
      context; otherwise the poster is drawn and named. */
  function DownloadPoster(p: PosterParams, previewMounted: bool, canvasAvailable: bool): (e: Option<Export>)
    ensures e.Some? <==> previewMounted && canvasAvailable
    ensures e.Some? ==> e.value.filename == Filename(p.paymentType, p.displayValues.primaryValue, p.template.slug)
    ensures e.Some? ==> |e.value.commands| >= 1 && e.value.commands[0] == Backdrop(p.template.size.width as real, p.template.size.height as real)
  {
    if !previewMounted || !canvasAvailable then None
    else
      var cmds := Flatten(PosterPasses(p));
      Some(Export(cmds, Filename(p.paymentType, p.displayValues.primaryValue, p.template.slug)))
  }

  /** The fill and rule passes follow the layout: one fill per section, in
      order, painted by its background; then a border-coloured fill per heavy
      rule the layout asks for. `Flatten` places them right after the
      backdrop, and `PosterFills` says the exporter draws these passes with
      the colour defaulting to green. */
  lemma FillsFollowLayout(pt: PaymentType, showName: bool, showQr: bool, width: real, height: real, mainColor: string)
    ensures var fills := BandFills(FillPass(pt, showName, width, height), mainColor);
      var rules := RuleFills(RulePass(pt, showName, width, height));
      var a := Layout(pt, showName, showQr);
      && |fills| == |a.sections|
      && (forall i :: 0 <= i < |fills| ==>
            fills[i].FillRect? && fills[i].color == Paint(a.sections[i].background, mainColor))
      && (|rules| >= 1 <==> a.ruleAbovePrimary)
      && (|rules| == 2 <==> a.ruleBelowPrimary)
      && |rules| <= 2
      && (forall i :: 0 <= i < |rules| ==>
            rules[i].FillRect? && rules[i].color == BorderColor && rules[i].rect.h == RuleThickness)
  {
    LayoutTable(pt, showName, showQr);
    RulesOnBoundaries(pt, showName, width, height);
  }

  /** The passes of `downloadPoster`, one by one. */
  lemma PosterPassesParts(p: PosterParams)
    ensures var ps := PosterPasses(p);
      var width := p.template.size.width as real;
      var height := p.template.size.height as real;
      && ps.backdrop == Backdrop(width, height)
      && ps.fills == BandFills(FillPass(p.paymentType, p.showName, width, height),
                               MainColor(p))
      && ps.rules == RuleFills(RulePass(p.paymentType, p.showName, width, height))
      && (forall j :: 0 <= j < |ps.texts| ==> ps.texts[j].FillText?)
      && ps.qr == QrCommands(p.showQrCode, p.displayValues, width, height, FontSizes(width, height, p.fontScale).title)
  {
  }

  /** What the exporter writes as its title: the first text, in the title
      font, white, at the middle of the first band, which is painted in the
      chosen colour. Without a title it is "SEND MONEY"; with one it is the
      given title letter for letter with no lower-case letter left. */
  lemma PosterTitle(p: PosterParams)
    ensures var ps := PosterPasses(p);
      var width := p.template.size.width as real;
      var height := p.template.size.height as real;
      var fonts := FontSizes(width, height, p.fontScale);
      && |ps.texts| >= 1 && |ps.fills| >= 1
      && ps.fills[0].FillRect?
      && ps.fills[0].color == MainColor(p)
      && ps.texts[0].FillText?
      && ps.texts[0].size == fonts.title
      && ps.texts[0].y == MidY(ps.fills[0].rect)
      && ps.texts[0].x == TextX(p.showQrCode, width)
      && ps.texts[0].color == WhiteColor
      && (p.title == [] ==> ps.texts[0].text == DefaultTitle)
      && (p.title != [] ==>
            && |ps.texts[0].text| == |p.title|
            && (forall i :: 0 <= i < |p.title| ==> !('a' <= ps.texts[0].text[i] <= 'z'))
            && (forall i :: 0 <= i < |p.title| ==> LowerChar(ps.texts[0].text[i]) == LowerChar(p.title[i])))
  {
    var width := p.template.size.width as real;
    var height := p.template.size.height as real;
    LayoutTable(p.paymentType, p.showName, false);
    CentresAreMidpoints(p.paymentType, p.showName, width, height);
  }

  /** Every fill the exporter paints has a colour, taken from the layout: the
      chosen colour, or green when none is chosen, on the coloured sections,
      and white or black on the others. */
  lemma PosterFills(p: PosterParams)
    ensures var ps := PosterPasses(p);
      var a := Layout(p.paymentType, p.showName, p.showQrCode);
      && |ps.fills| == |a.sections|
      && (forall i :: 0 <= i < |ps.fills| ==>
            && ps.fills[i].FillRect?
            && ps.fills[i].color != []
            && ps.fills[i].color == Paint(a.sections[i].background, MainColor(p)))
  {
    var width := p.template.size.width as real;
    var height := p.template.size.height as real;
    FillsColoured(p.paymentType, p.showName, p.showQrCode, width, height, MainColor(p));
  }

  /** With a main colour, every fill has a colour, the one its section's
      background asks for. */
  lemma FillsColoured(pt: PaymentType, showName: bool, showQr: bool, width: real, height: real, mainColor: string)
    requires mainColor != []
    ensures var fills := BandFills(FillPass(pt, showName, width, height), mainColor);
      var a := Layout(pt, showName, showQr);
      && |fills| == |a.sections|
      && (forall i :: 0 <= i < |fills| ==>
            && fills[i].FillRect?
            && fills[i].color != []
            && fills[i].color == Paint(a.sections[i].background, mainColor))
  {
    FillsFollowLayout(pt, showName, showQr, width, height, mainColor);
  }

  /** In flattened passes whose backdrop, fills, rules and texts draw no
      symbol, a symbol is drawn exactly when the QR pass draws one. */
  lemma SymbolOnlyFromQr(ps: Passes)
    requires !ps.backdrop.DrawSymbol?
    requires forall i :: 0 <= i < |ps.fills| ==> !ps.fills[i].DrawSymbol?
    requires forall i :: 0 <= i < |ps.rules| ==> !ps.rules[i].DrawSymbol?
    requires forall i :: 0 <= i < |ps.texts| ==> !ps.texts[i].DrawSymbol?
    ensures var cmds := Flatten(ps);
      (exists i :: 0 <= i < |cmds| && cmds[i].DrawSymbol?) <==> (exists k :: 0 <= k < |ps.qr| && ps.qr[k].DrawSymbol?)
  {
    var cmds := Flatten(ps);
    var n := 1 + |ps.fills| + |ps.rules| + |ps.texts|;
    if k :| 0 <= k < |ps.qr| && ps.qr[k].DrawSymbol? {
      assert cmds[n + k] == ps.qr[k];
    } else {
      forall i | 0 <= i < |cmds|
        ensures !cmds[i].DrawSymbol?
      {
        if i == 0 {
        } else if i < 1 + |ps.fills| {
          assert cmds[i] == ps.fills[i - 1];
        } else if i < 1 + |ps.fills| + |ps.rules| {
          assert cmds[i] == ps.rules[i - 1 - |ps.fills|];
        } else if i < n {
          assert cmds[i] == ps.texts[i - 1 - |ps.fills| - |ps.rules|];
        } else {
          assert cmds[i] == ps.qr[i - n];
        }
      }
    }
  }

  /** Only the QR pass draws a symbol, so one is drawn exactly when the QR
      code is shown and there is a primary value. */
  lemma PosterSymbolIffQr(p: PosterParams)
    ensures var cmds := Flatten(PosterPasses(p));
      (exists i :: 0 <= i < |cmds| && cmds[i].DrawSymbol?) <==> p.showQrCode && p.displayValues.primaryValue != []
  {
    var ps := PosterPasses(p);
    PosterPassesParts(p);
    SymbolOnlyFromQr(ps);
    if p.showQrCode && p.displayValues.primaryValue != [] {
      assert ps.qr[2].DrawSymbol?;
    }
  }
}

=== FILE: text.dfy ===
/** The JavaScript string primitives the poster code relies on, stated over
    `seq<char>`: the regular-expression classes `\d` and `\s`, `replace(..., "")`
    with a global class (a filter), `trim`, `toUpperCase` / `toLowerCase`,
    `replaceAll` of one character, and the UTF-16 `length`. */
module Text {

  /** `\d`: the ASCII digits only. */
  predicate IsDigit(c: char) {
    '0' <= c <= '9'
  }

  /** `\s`, which is also the set `trim` removes: ECMAScript WhiteSpace
      (tab, vertical tab, form feed, space, no-break space, byte order mark,
      the space separators) and LineTerminator (LF, CR, LS, PS). */
  predicate IsSpace(c: char) {
    || c == '\t' || c == '\n' || c == '\U{000B}' || c == '\U{000C}' || c == '\r'
    || c == ' ' || c == '\U{00A0}' || c == '\U{1680}'
    || ('\U{2000}' <= c <= '\U{200A}')
    || c == '\U{2028}' || c == '\U{2029}' || c == '\U{202F}' || c == '\U{205F}'
    || c == '\U{3000}' || c == '\U{FEFF}'
  }

  predicate NotDigit(c: char) { !IsDigit(c) }
  predicate NotSpace(c: char) { !IsSpace(c) }
  predicate NotBlankChar(c: char) { c != ' ' }

  predicate AllDigits(s: string) {
    forall i :: 0 <= i < |s| ==> IsDigit(s[i])
  }

  /** Every character is a digit or the ASCII space: the shape of every
      formatted number. */
  predicate DigitsAndSpaces(s: string) {
    forall i :: 0 <= i < |s| ==> IsDigit(s[i]) || s[i] == ' '
  }

  /** No `\s` character. */
  predicate NoSpace(s: string) {
    forall i :: 0 <= i < |s| ==> !IsSpace(s[i])
  }

  predicate Blank(s: string) {
    forall i :: 0 <= i < |s| ==> IsSpace(s[i])
  }

  /** `s.replace(/[^P]/g, "")`: the characters satisfying `keep`, in order. */
  function Filter(s: string, keep: char -> bool): (r: string)
    ensures |r| <= |s|
    ensures forall i :: 0 <= i < |r| ==> keep(r[i])
  {
    if s == [] then []
    else (if keep(s[0]) then [s[0]] else []) + Filter(s[1..], keep)
  }

  /** `s.replace(/\D/g, "")`. */
  function Digits(s: string): (r: string)
    ensures AllDigits(r)
  {
    Filter(s, IsDigit)
  }

  /** `s.replace(/\s/g, "")`. */
  function StripSpaces(s: string): (r: string)
    ensures NoSpace(r)
  {
    Filter(s, NotSpace)
  }

  /** `s.replaceAll(" ", "")`, and the "delete the spaces" of a formatted number. */
  function RemoveBlanks(s: string): (r: string)
    ensures ' ' !in r
  {
    Filter(s, NotBlankChar)
  }

  lemma {:induction false} FilterAppend(a: string, b: string, keep: char -> bool)
    ensures Filter(a + b, keep) == Filter(a, keep) + Filter(b, keep)
  {
    if a == [] {
      assert a + b == b;
    } else {
      assert (a + b)[0] == a[0];
      assert (a + b)[1..] == a[1..] + b;
      FilterAppend(a[1..], b, keep);
    }
  }

  /** A filter leaves alone a string whose characters it all keeps. */
  lemma {:induction false} FilterKeepsAll(s: string, keep: char -> bool)
    requires forall i :: 0 <= i < |s| ==> keep(s[i])
    ensures Filter(s, keep) == s
  {
    if s != [] {
      FilterKeepsAll(s[1..], keep);
    }
  }

  /** A filter whose every character is rejected yields the empty string. */
  lemma {:induction false} FilterDropsAll(s: string, keep: char -> bool)
    requires forall i :: 0 <= i < |s| ==> !keep(s[i])
    ensures Filter(s, keep) == []
  {
    if s != [] {
      FilterDropsAll(s[1..], keep);
    }
  }

  lemma DigitsOfDigits(s: string)
    requires AllDigits(s)
    ensures Digits(s) == s
  {
    FilterKeepsAll(s, IsDigit);
  }

  lemma DigitsAppend(a: string, b: string)
    ensures Digits(a + b) == Digits(a) + Digits(b)
  {
    FilterAppend(a, b, IsDigit);
  }

  /** Over a string of digits and spaces, deleting the spaces and keeping the
      digits are the same thing. */
  lemma {:induction false} RemoveBlanksIsDigits(s: string)
    requires DigitsAndSpaces(s)
    ensures RemoveBlanks(s) == Digits(s)
  {
    if s != [] {
      RemoveBlanksIsDigits(s[1..]);
    }
  }

  /** A filter is idempotent. */
  lemma FilterIdempotent(s: string, keep: char -> bool)
    ensures Filter(Filter(s, keep), keep) == Filter(s, keep)
  {
    FilterKeepsAll(Filter(s, keep), keep);
  }

  /** A character the filter keeps is in its output. */
  lemma {:induction false} FilterKeepsMember(s: string, keep: char -> bool, i: nat)
    requires i < |s| && keep(s[i])
    ensures s[i] in Filter(s, keep)
  {
    if i > 0 {
      FilterKeepsMember(s[1..], keep, i - 1);
    }
  }

  /** Two filters that agree on every character of a string agree on it. */
  lemma {:induction false} FilterAgree(s: string, p: char -> bool, q: char -> bool)
    requires forall i :: 0 <= i < |s| ==> p(s[i]) == q(s[i])
    ensures Filter(s, p) == Filter(s, q)
  {
    if s != [] {
      FilterAgree(s[1..], p, q);
    }
  }

  /** On a formatted number, deleting the whitespace keeps the digits. */
  lemma StripSpacesIsDigits(s: string)
    requires DigitsAndSpaces(s)
    ensures StripSpaces(s) == Digits(s)
  {
    FilterAgree(s, NotSpace, IsDigit);
  }

  lemma DigitsHaveNoSpace(s: string)
    requires AllDigits(s)
    ensures NoSpace(s)
  {
    forall i | 0 <= i < |s|
      ensures !IsSpace(s[i])
    {
      assert IsDigit(s[i]);
    }
  }

  lemma NoSpaceConcat(a: string, b: string)
    requires NoSpace(a) && NoSpace(b)
    ensures NoSpace(a + b)
  {
    assert forall i :: 0 <= i < |a + b| ==> (a + b)[i] == if i < |a| then a[i] else b[i - |a|];
  }

  /** Deleting the whitespace around a space deletes it on each side. */
  lemma StripAroundBlank(a: string, b: string)
    ensures StripSpaces(a + " " + b) == StripSpaces(a) + StripSpaces(b)
  {
    FilterAppend(a + " ", b, NotSpace);
    FilterAppend(a, " ", NotSpace);
    FilterDropsAll(" ", NotSpace);
  }

  lemma StripNoSpace(a: string)
    requires NoSpace(a)
    ensures StripSpaces(a) == a
  {
    FilterKeepsAll(a, NotSpace);
  }

  /** Deleting the whitespace of three whitespace-free groups joined by
      spaces concatenates the groups. */
  lemma StripThreeGroups(s: string, a: string, b: string, c: string)
    requires s == a + " " + b + " " + c
    requires NoSpace(a) && NoSpace(b) && NoSpace(c)
    ensures StripSpaces(s) == a + b + c
  {
    StripAroundBlank(a + " " + b, c);
    StripAroundBlank(a, b);
    StripNoSpace(a);
    StripNoSpace(b);
    StripNoSpace(c);
  }

  /** How many `\s` characters the string starts with. */
  function LeadingSpaces(s: string): (k: nat)
    ensures k <= |s|
    ensures forall i :: 0 <= i < k ==> IsSpace(s[i])
    ensures k < |s| ==> !IsSpace(s[k])
  {
    if s != [] && IsSpace(s[0]) then 1 + LeadingSpaces(s[1..]) else 0
  }

  /** How many `\s` characters the string ends with. */
  function TrailingSpaces(s: string): (k: nat)
    ensures k <= |s|
    ensures forall i :: |s| - k <= i < |s| ==> IsSpace(s[i])
    ensures k < |s| ==> !IsSpace(s[|s| - k - 1])
  {
    if s != [] && IsSpace(s[|s| - 1]) then 1 + TrailingSpaces(s[..|s| - 1]) else 0
  }

  /** `trimStart`. */
  function TrimStart(s: string): (r: string)
    ensures |r| <= |s|
    ensures Blank(s[..|s| - |r|]) && s[|s| - |r|..] == r
    ensures r == [] || !IsSpace(r[0])
  {
    s[LeadingSpaces(s)..]
  }

  /** `trimEnd`. */
  function TrimEnd(s: string): (r: string)
    ensures |r| <= |s|
    ensures Blank(s[|r|..]) && s[..|r|] == r
    ensures r == [] || !IsSpace(r[|r| - 1])
  {
    s[..|s| - TrailingSpaces(s)]
  }

  /** `trim`. */
  function Trim(s: string): (r: string)
    ensures r == [] || (!IsSpace(r[0]) && !IsSpace(r[|r| - 1]))
  {
    TrimEnd(TrimStart(s))
  }

  /** `s.trim().length === 0` holds exactly of the blank strings. */
  lemma TrimEmptyIffBlank(s: string)
    ensures Trim(s) == [] <==> Blank(s)
  {
    var t := TrimStart(s);
    if Trim(s) == [] {
      assert t == [];
      assert s[..|s|] == s;
    }
  }

  /** The UTF-16 code units a character occupies. */
  function Utf16Units(c: char): nat {
    if c as int > 0xFFFF then 2 else 1
  }

  /** JavaScript `length`: UTF-16 code units, so a character outside the
      Basic Multilingual Plane counts twice. */
  function Utf16Length(s: string): (n: nat)
    ensures |s| <= n <= 2 * |s|
  {
    if s == [] then 0 else Utf16Units(s[0]) + Utf16Length(s[1..])
  }

  /** `length >= 1` is the same as being non-empty. */
  lemma Utf16NonEmpty(s: string)
    ensures Utf16Length(s) >= 1 <==> s != []
  {
  }

  /** Inside the Basic Multilingual Plane `length` counts characters. */
  lemma {:induction false} Utf16OfBmp(s: string)
    requires forall i :: 0 <= i < |s| ==> s[i] as int <= 0xFFFF
    ensures Utf16Length(s) == |s|
  {
    if s != [] {
      Utf16OfBmp(s[1..]);
    }
  }

  function UpperChar(c: char): char {
    if 'a' <= c <= 'z' then (c as int - 'a' as int + 'A' as int) as char else c
  }

  function LowerChar(c: char): char {
    if 'A' <= c <= 'Z' then (c as int - 'A' as int + 'a' as int) as char else c
  }

  /** `toUpperCase`, on the ASCII letters. */
  function ToUpper(s: string): (r: string)
    ensures |r| == |s|
    ensures forall i :: 0 <= i < |r| ==> !('a' <= r[i] <= 'z')
    ensures forall i :: 0 <= i < |r| ==> LowerChar(r[i]) == LowerChar(s[i])
  {
    if s == [] then [] else [UpperChar(s[0])] + ToUpper(s[1..])
  }

  /** `toLowerCase`, on the ASCII letters. */
  function ToLower(s: string): (r: string)
    ensures |r| == |s|
    ensures forall i :: 0 <= i < |r| ==> !('A' <= r[i] <= 'Z')
    ensures forall i :: 0 <= i < |r| ==> r[i] == LowerChar(s[i])
  {
    if s == [] then [] else [LowerChar(s[0])] + ToLower(s[1..])
  }

  /** A string that is `n` lower-cased character by character is `ToLower(n)`. */
  lemma ToLowerPointwise(n: string, s: string)
    requires |s| == |n| && forall i :: 0 <= i < |n| ==> s[i] == LowerChar(n[i])
    ensures ToLower(n) == s
  {
  }

  lemma {:induction false} ToUpperKeepsUpper(s: string)
    requires forall i :: 0 <= i < |s| ==> !('a' <= s[i] <= 'z')
    ensures ToUpper(s) == s
  {
    if s != [] {
      ToUpperKeepsUpper(s[1..]);
    }
  }

  lemma {:induction false} ToUpperIdempotent(s: string)
    ensures ToUpper(ToUpper(s)) == ToUpper(s)
  {
    if s != [] {
      ToUpperIdempotent(s[1..]);
    }
  }

  /** `s.replaceAll(a, b)` for one-character `a` and `b`. */
  function ReplaceChar(s: string, a: char, b: char): (r: string)
    ensures |r| == |s|
    ensures a != b ==> a !in r
    ensures forall i :: 0 <= i < |s| && s[i] != a ==> r[i] == s[i]
    ensures forall i :: 0 <= i < |s| && s[i] == a ==> r[i] == b
  {
    if s == [] then []
    else [if s[0] == a then b else s[0]] + ReplaceChar(s[1..], a, b)
  }

  /** `parts.join(" ")`. */
  function JoinWithSpace(parts: seq<string>): string {
    if parts == [] then []
    else if |parts| == 1 then parts[0]
    else parts[0] + " " + JoinWithSpace(parts[1..])
  }

  /** The concatenation of the parts, with no separator. */
  function Concat(parts: seq<string>): string {
    if parts == [] then [] else parts[0] + Concat(parts[1..])
  }

  /** Joining digit groups with spaces and deleting the spaces again gives
      back the digits. */
  lemma {:induction false} JoinThenDigits(parts: seq<string>)
    requires forall i :: 0 <= i < |parts| ==> AllDigits(parts[i])
    ensures Digits(JoinWithSpace(parts)) == Concat(parts)
    ensures DigitsAndSpaces(JoinWithSpace(parts))
  {
    if parts == [] {
    } else if |parts| == 1 {
      DigitsOfDigits(parts[0]);
      assert Concat(parts) == parts[0] + Concat([]);
    } else {
      var head, tail := parts[0], JoinWithSpace(parts[1..]);
      assert JoinWithSpace(parts) == head + " " + tail;
      assert Concat(parts) == head + Concat(parts[1..]);
      JoinThenDigits(parts[1..]);
      DigitsAroundBlank(head, tail);
      DigitsOfDigits(head);
      DigitsAndSpacesConcat(head, tail);
    }
  }

  lemma DigitsAroundBlank(a: string, b: string)
    ensures Digits(a + " " + b) == Digits(a) + Digits(b)
  {
    DigitsAppend(a + " ", b);
    DigitsAppend(a, " ");
    assert Digits(" ") == [];
  }

  lemma DigitsAndSpacesConcat(a: string, b: string)
    requires AllDigits(a) && DigitsAndSpaces(b)
    ensures DigitsAndSpaces(a + " " + b)
  {
    assert forall i :: 0 <= i < |a + " " + b| ==>
      (a + " " + b)[i] == if i < |a| then a[i] else if i == |a| then ' ' else b[i - |a| - 1];
  }
}

=== FILE: types.dfy ===
/** The shapes the poster code passes around: the payment type union, the
    form record, the template record and the derived display values. */
module Types {

  /** `"SEND_MONEY" | "PAYBILL" | "TILL_NUMBER"`. */
  datatype PaymentType = SendMoney | Paybill | TillNumber

  /** The string each member of the union is spelled as. */
  function PaymentTypeName(pt: PaymentType): (s: string)
    ensures |s| >= 7
    ensures forall i :: 0 <= i < |s| ==> 'A' <= s[i] <= 'Z' || s[i] == '_'
  {
    match pt
    case SendMoney => "SEND_MONEY"
    case Paybill => "PAYBILL"
    case TillNumber => "TILL_NUMBER"
  }

  lemma PaymentTypeNameInjective(a: PaymentType, b: PaymentType)
    ensures PaymentTypeName(a) == PaymentTypeName(b) ==> a == b
  {
  }

  /** An optional string property: `undefined` or a string. */
  datatype Field = Missing | Given(text: string)

  /** JavaScript truthiness of an optional string: `undefined` and `""` are falsy. */
  predicate Falsy(f: Field) {
    f.Missing? || f.text == []
  }

  /** `f || fallback`. */
  function Or(f: Field, fallback: string): (r: string)
    ensures Falsy(f) ==> r == fallback
    ensures !Falsy(f) ==> r == f.text && r != []
  {
    if Falsy(f) then fallback else f.text
  }

  datatype Option<T> = None | Some(value: T)

  /** `PaymentForm`: every value the poster is drawn from. */
  datatype PaymentForm = PaymentForm(
    paymentType: PaymentType,
    phoneNumber: Field,
    paybillNumber: Field,
    accountNumber: Field,
    tillNumber: Field,
    name: Field,
    selectedColor: string,
    showName: bool,
    showQrCode: bool,
    title: string,
    fontScale: real)

  datatype Size = Size(width: int, height: int, sizeLabel: string)

  /** A catalog entry: an output resolution with a unique slug. */
  datatype Template = Template(name: string, slug: string, description: string, size: Size)

  /** The strings both renderers draw, and the QR payload. */
  datatype DisplayValues = DisplayValues(primaryValue: string, secondaryValue: string, qrData: string)
}
